=== FILE: README.md ===
# BrainyPath backend controllers in Dafny

This project models the three stateful cores of the BrainyPath course
marketplace's Express/Mongoose backend. Each controller becomes a pure
transition over one immutable value of the whole database. The outcome is a
`Step(db', Ok(reply) | Err(error))`. The `db'` is the database after every
write the controller made before it answered. An error raised after a write
therefore carries the partly written store.

- `payments.dfy` (module `Payments`) models the single-course purchase flow:
  - `createOrder` opens or re-finds the Payment record for one (buyer, course) pair.
  - `verifyPayment` marks the record paid, credits the instructor's revenue entry (the Customer document) and appends the course to the buyer's `purchasedCourses`.
  - `mysales` is modelled as a projection.
- `courses.dfy` (module `Courses`) models the instructor's course → section → lecture hierarchy:
  - It covers creating sections and lectures, attaching a lecture resource, updating titles and course details, the three deletes and submission for approval.
  - Every lookup is filtered by the calling instructor.
- `accounts.dfy` (module `Accounts`) models the account side:
  - registration, the rate-limited e-mail verification token, and account verification;
  - refresh-token rotation, password change, password reset and logout;
  - the cart and favourite lists, which are `$pull`/`$addToSet` set operations where a valid `remove` wins over `add`.
- `store.dfy` (module `Store`) holds the shared database.
  - Courses, sections and lectures are maps keyed by `_id`. The search for the sections of a course or the lectures of a section is a quantifier over the map.
  - The Customer revenue ledger is a map keyed by instructor id, and UserConfig is a map keyed by user id.
  - Payments and users are searched on several fields, so they are sequences in natural order. On those, `findOne` is the first match.
- `base.dfy` (module `Base`) holds `Option`/`Result`, JavaScript's `trim`, the "blank field" test, and the `$pull`/`$addToSet` operators.
- `service.dfy` (module `Service`) runs any sequence of requests to the three controllers. It proves that the store invariants of all three hold after every step.

Everything the controllers ask of the outside world comes in as a parameter:

- Razorpay: the `gateway` order-creation answer and the `verify` signature check.
- Cloudinary: the `upload` result and the `destroy` outcome.
- Hashing: `sha256` and the bcrypt comparison `matches`.
- JWT: `decode`, plus the `issued` refresh token.
- The token generator `gen` and the mailer outcome `mailOk`.
- The clock `now`, in milliseconds.
- The ObjectId `newId` assigned on create. An id that is already taken fails like MongoDB's duplicate-key error.

The caller's id (`req.user._id` or `req.instructor._id`) is a parameter.
`createOrder`, `cart`, `favourite` and the course operations use only that
id, except that `submitForApproval` also reads the caller's `username`. The
model takes that name as the parameter `instructorName`. `verifyPayment`, `emailVerificationToken`, `verifyUserAccount`,
`changePassword` and `logoutUser` read or save the caller's document, so
they `require` that it exists, as the authentication middleware guarantees.
`Service` skips a request to one of those five when the document is missing.

Points of the purchase flow where the code's behaviour is easy to mistake:

- An order is for one course; there is no multi-course cart checkout.
- The course grant is an append of `[...req.user.purchasedCourses, order.course_id]`, so a course can be held twice. It is not a set union.
- A second `verifyPayment` of a settled order fails with "order does not exist". It is not an idempotent no-op.
- There is no per-instructor share or commission. The whole price is credited.
- `createOrder` writes the instructor under the misspelt field `instuctor_id`. The credit and `mysales` read `instructor_id`.
  - The model keeps the two as separate fields (`Payment.instuctorId`, `Payment.instructorId`).
  - The credit target is computed from the possibly absent `instructorId`.
  - What MongoDB does with an `undefined` filter value is not guessed. It is an input, `unfilteredMatch`.

Other behaviour of the code that the model keeps:

- `cart` replies "course added to cart" whenever an `add` parameter is present, even when a valid `remove` took precedence.
- The failure guard after the delete in `deleteLecture` tests the controller function itself, not the deleted document, so it never fires.
- Expiry boundaries differ between flows:
  - Account verification accepts a token whose expiry is not yet past (`expiry >= now`).
  - `emailVerificationToken` treats `now <= expiry` as live.
  - Password reset needs `expiry > now`.
- The verification code is checked for blankness and for a length of six after trimming. The reset code is checked for blankness only. Both are hashed untrimmed.
- `emailVerificationToken` treats its two paths differently:
  - A re-send mails before it saves, so a mail failure there stores nothing.
  - A fresh token is saved before it is mailed, so a mail failure leaves the new token stored.
- `submitForApproval` queues a new review request on every call.
- `verifyPayment` saves the order as paid before it credits the revenue. A missing ledger entry fails the call with the order already paid and nothing credited.

## Model

| member | source | states |
|---|---|---|
| Base.BlankIsEmptyAfterTrim | src/controllers/payment.controller.js:85-89 | The model's blank-field test holds exactly when the field is undefined or trims to the empty string. |
| Base.Trim | src/controllers/user.controllers.js:147-152 | `trim` returns a slice of the text with only whitespace cut off before and after it. The slice neither starts nor ends with whitespace, and it is empty exactly when the text is all whitespace. |
| Base.Utf16Length | src/controllers/user.controllers.js:152 | JavaScript's `length` counts UTF-16 units: a single character counts two exactly when it lies above U+FFFF, otherwise one. |
| Base.Utf16LengthAppend | src/controllers/user.controllers.js:152 | The count of a concatenation is the sum of the counts, so with `Utf16Length`'s single-character clause a text counts one or two units per character. |
| Base.Utf16LengthBmp | src/controllers/user.controllers.js:152 | JavaScript's `length` counts UTF-16 code units. It equals the number of characters exactly when no character lies above U+FFFF. |
| Base.Pull | src/controllers/user.controllers.js:691-704 | `$pull` removes every occurrence of the value and nothing else: the length drops by exactly the value's multiplicity. A duplicate-free list stays duplicate-free. |
| Base.PullAppend | src/controllers/user.controllers.js:691-704 | Pulling from a concatenation is pulling from each part. With `PullOne`, this means the kept elements keep their order and multiplicity. |
| Base.PullOne | src/controllers/user.controllers.js:691-704 | On a single element, `$pull` keeps it exactly when it differs from the value. |
| Base.AddToSet | src/controllers/user.controllers.js:706-719 | `$addToSet` leaves a list that already holds the value unchanged. Otherwise it appends the value. It never creates a duplicate. |
| Base.AddToSetIdempotent | src/controllers/user.controllers.js:706-719 | Adding the same value twice is adding it once, and a pull after an add leaves no copy. |
| Base.PullIdempotent | src/controllers/user.controllers.js:691-704 | Pulling the same value twice is pulling it once. |
| Store.FirstMatch | src/controllers/payment.controller.js:22-25 | `findOne` returns the first document in natural order that matches, or none exactly when no document matches. |
| Store.SaveCaller | src/controllers/user.controllers.js:169-173 | Saving the caller's document replaces exactly that document. Every other user document is unchanged, and ids and e-mails stay unique. |
| Store.TotalIncrement | src/controllers/payment.controller.js:115-124 | An `$inc` of one revenue entry raises the total owed to all instructors by exactly the increment. |
| Payments.FindOrder | src/controllers/payment.controller.js:22-25 | The order lookup finds the first record of this buyer for this course, and finds none exactly when the buyer has no record for it. |
| Payments.AppendKeepsInvariants | src/controllers/payment.controller.js:59-66 | Appending a record for a (buyer, course) pair that has none keeps one record per pair and removes nothing. |
| Payments.CreateOrder | src/controllers/payment.controller.js:13-78 | An error stores nothing. Only the payment collection changes, by at most one appended record. Paid records are untouched, and one record per (buyer, course) is kept. |
| Payments.OpenOrder | src/controllers/payment.controller.js:39-66 | A new order appends exactly one unpaid record for the buyer and course, carrying the gateway's order id. The field the credit reads is left absent. |
| Payments.CreateOrderNeedsCourseId | src/controllers/payment.controller.js:16-20 | A missing or blank course id fails with "course id not given" before any lookup, and stores nothing. |
| Payments.CreateOrderReturnsExisting | src/controllers/payment.controller.js:22-37 | An existing record for (buyer, course), paid or not, is answered with its own order id. Nothing is stored and the gateway's answer plays no part. |
| Payments.CreateOrderNeedsApprovedCourse | src/controllers/payment.controller.js:39-46 | Without an existing record, a course that is missing or not approved fails with "invalid course id" and stores nothing. |
| Payments.CreateOrderOpensNewOrder | src/controllers/payment.controller.js:48-66 | The gateway is asked for price*100 in INR. A refusal stores nothing. An order id is stored in a new unpaid record at the course price, with the instructor under `instuctor_id` only. |
| Payments.CreateOrderIdempotent | src/controllers/payment.controller.js:22-37 | Repeating a successful createOrder returns the same order id and stores nothing, whatever the gateway would answer now. |
| Payments.NewOrdersNeverInMySales | src/controllers/payment.controller.js:59-66 | Because createOrder writes `instuctor_id`, the records it creates never appear in any instructor's sales. |
| Payments.CreditTarget | src/controllers/payment.controller.js:115-118 | When the record's `instructor_id` is present, the credited ledger entry is exactly that instructor's, and there is none when the instructor has no entry. When the field is absent, the entry is the store's own resolution of the undefined filter (`unfilteredMatch`) exactly when that names an existing entry. |
| Payments.Credit | src/controllers/payment.controller.js:115-124 | The matched instructor's revenue rises by exactly the amount. No other entry moves, and the total rises by the amount. |
| Payments.Grant | src/controllers/payment.controller.js:130-135 | The buyer's purchase list becomes the request-time list with the course appended, duplicates allowed. Nothing else about any user changes. |
| Payments.SettleKeepsInvariants | src/controllers/payment.controller.js:107-113 | Marking an unpaid record paid, with its signature and payment id, changes only the payment outcome and keeps one record per pair. |
| Payments.Commit | src/controllers/payment.controller.js:107-137 | The order is saved as paid before the credit. The call succeeds exactly when a ledger entry matches. A failed credit leaves the order paid with revenue and purchases untouched. A success changes only the buyer's `purchasedCourses`, to the request-time list with the order's course appended. |
| Payments.CommitCreditsAndGrants | src/controllers/payment.controller.js:115-135 | A successful commit credits exactly the order's price to the matched entry and to the total. It appends the course to the buyer's request-time purchase list. Every other user document, and every other field of the buyer's, is unchanged. |
| Payments.VerifyPayment | src/controllers/payment.controller.js:80-144 | Every error except the failed credit stores nothing, and revenue or purchases change only on success. A success changes no user document but the buyer's, and no field of the buyer's but `purchasedCourses`. Payment records only evolve: none disappears and a paid one never changes. |
| Payments.VerifyNeedsAllFields | src/controllers/payment.controller.js:85-89 | A missing or blank payment id, order id or signature fails with "all fields are required" and stores nothing. |
| Payments.VerifyNeedsPendingOrder | src/controllers/payment.controller.js:91-97 | Without an unpaid record of the caller with this order id, the call fails with "order does not exist" and stores nothing. |
| Payments.VerifyRejectsBadSignature | src/controllers/payment.controller.js:99-105 | A rejected signature fails with "invalid signature". The order stays unpaid, and revenue and purchases are untouched. |
| Payments.VerifyCommits | src/controllers/payment.controller.js:99-113 | A valid signature on the caller's unpaid order commits that order. |
| Payments.SecondVerifyFails | src/controllers/payment.controller.js:91-97 | A second verify of an order the first one settled fails with "order does not exist" and changes nothing. So the credit and the grant happen at most once per order, provided only one of the buyer's records carries the Razorpay order id (`UniqueOrder`). Razorpay issues a fresh id per order; no invariant of the model maintains this. |
| Payments.MySales | src/controllers/payment.controller.js:146-175 | The sales listed are exactly the projections (course, paid, price) of the records whose `instructor_id` is the caller. |
| Payments.MySalesAppend | src/controllers/payment.controller.js:151-166 | The sales of a concatenation are the sales of each part, in order. |
| Courses.PutSection | src/controllers/course.controller.js:135-148 | Storing a section whose course exists and belongs to the same instructor keeps every section's course and every lecture's section in place. |
| Courses.PutLecture | src/controllers/course.controller.js:177-193 | Storing a lecture whose section exists keeps the hierarchy linked. |
| Courses.DropSection | src/controllers/course.controller.js:464-472 | Removing a section no lecture points at keeps every lecture's section in place. |
| Courses.DropCourse | src/controllers/course.controller.js:506-514 | Removing a course no section points at keeps every section's course in place. |
| Courses.CreateSection | src/controllers/course.controller.js:118-157 | The call succeeds exactly when the title and course id are given, the course exists and is the caller's, and the new id is free. Then exactly one section is added, recording that course and the caller. Errors store nothing and the hierarchy stays linked. |
| Courses.AddLecture | src/controllers/course.controller.js:161-203 | The call succeeds exactly when all fields are given and the section matches the section id, the course id and the caller at once. Then exactly one lecture is added, pointing at that section, with no resource. |
| Courses.AddResource | src/controllers/course.controller.js:13-61 | The call succeeds exactly when the file and the caller's lecture exist, the upload worked, and any old asset was destroyed. Only that lecture's resource and type change, to the upload and the requested kind. |
| Courses.AddResourceIgnoresDestroyWithoutAsset | src/controllers/course.controller.js:44-49 | Cloudinary's destroy answer matters only when the lecture has an old asset. |
| Courses.UpdateLectureTitle | src/controllers/course.controller.js:240-278 | The call succeeds exactly for a given title on a lecture of the caller. Then only that lecture's title changes. |
| Courses.UpdateSectionTitle | src/controllers/course.controller.js:282-319 | The call succeeds exactly for a given title on a section of the caller. Then only that section's title changes. |
| Courses.UpdateSectionTitleIdempotent | src/controllers/course.controller.js:297-310 | Setting a section title twice is setting it once. |
| Courses.UpdateCourseDetails | src/controllers/course.controller.js:323-394 | The call fails when no field and no thumbnail are given. Otherwise only the supplied price, description and title overwrite, and a new thumbnail replaces the old only after the old was destroyed and the new uploaded. Instructor and approval never change. |
| Courses.DeleteLecture | src/controllers/course.controller.js:398-444 | The call succeeds exactly for a lecture of the caller whose old asset, if any, was destroyed. Then exactly that lecture goes. |
| Courses.DeleteSection | src/controllers/course.controller.js:448-489 | The call succeeds exactly for a section of the caller that no lecture points at. Then exactly that section goes. |
| Courses.DeleteCourse | src/controllers/course.controller.js:491-539 | The call succeeds exactly for a course of the caller that no section points at and whose thumbnail was destroyed. Then exactly that course goes. |
| Courses.SubmitForApproval | src/controllers/course.controller.js:627-665 | The call succeeds exactly for a course of the caller. Then one review request, under the caller's name, is appended to the queue. |
| Courses.DeleteSectionUndoesCreate | src/controllers/course.controller.js:448-489 | Deleting a section just created gives back the store as it was. |
| Courses.DeleteLectureUndoesAdd | src/controllers/course.controller.js:398-444 | Deleting a lecture just created gives back the store as it was, whatever Cloudinary would answer. |
| Courses.SubmitTwiceQueuesTwo | src/controllers/course.controller.js:647-652 | Submissions are not deduplicated: two submissions queue two identical review requests. |
| Accounts.RegisterUser | src/controllers/user.controllers.js:28-84 | The call succeeds exactly when username, e-mail and password are all given and the e-mail is not taken. Then exactly one unverified user with no tokens or purchases is appended, and users stay keyed. |
| Accounts.EmailVerificationToken | src/controllers/user.controllers.js:88-138 | A verified user gets "user already verified" and nothing is stored. In the cooldown (a live token with no mails left) the reply is the cooldown answer and nothing is stored. Otherwise the reply is a success exactly when the mail goes out. The caller's slot, and only it, is rewritten exactly when no live token exists (fresh token, `gen(t, true)`, stored even if the mail fails) or when a live token is re-issued (`gen(t, false)`) and the mail went out. |
| Accounts.VerifyUserAccount | src/controllers/user.controllers.js:142-188 | The call succeeds exactly for an unverified user whose code is six UTF-16 units once trimmed and hashes to the stored, unexpired token. Then only the caller's slot changes: it becomes verified and the token is cleared. Every error stores nothing. |
| Accounts.CooldownIssuesNothing | src/controllers/user.controllers.js:100-110 | A live token with no mails left stores nothing and answers the same, whatever the generator and the mailer would do. |
| Accounts.VerifyOnlyOnce | src/controllers/user.controllers.js:147 | After a successful verification, every later verification fails with "user already verified". |
| Accounts.RefreshAccessToken | src/controllers/user.controllers.js:289-322 | The call succeeds exactly when the cookie token decodes to an existing user whose stored refresh token it equals. Then only that user's slot changes: its stored token is replaced by the new one. |
| Accounts.RefreshTokenSingleUse | src/controllers/user.controllers.js:302-311 | Once exchanged for a different token, a refresh token is refused. |
| Accounts.ChangePassword | src/controllers/user.controllers.js:326-366 | Identical old and new passwords and a wrong old password are rejected, and errors store nothing. On success only the caller's slot changes: the password and refresh token are replaced. |
| Accounts.ChangePasswordRevokesRefresh | src/controllers/user.controllers.js:349-355 | After a password change, the refresh token the caller held before is refused, provided the newly issued refresh token differs from the old one. |
| Accounts.FindResetMatch | src/controllers/user.controllers.js:450-453 | The reset lookup finds a user whose reset token is the hash and expires strictly after now, and finds none exactly when there is no such user. |
| Accounts.ResetPassword | src/controllers/user.controllers.js:429-472 | The call succeeds exactly for given fields and a matching unexpired reset token. Then exactly that user gets the new password and loses both the reset token and the refresh token. |
| Accounts.ResetSingleUse | src/controllers/user.controllers.js:457-463 | A reset code works once: the same code fails afterwards, provided only one user holds a live reset token with that hash (`UniqueResetMatch`). The reset looks up the first holder, and no invariant of the model maintains this uniqueness. |
| Accounts.LogoutUser | src/controllers/user.controllers.js:266-285 | Logout always succeeds. The only change is the removal of the caller's refresh token in the caller's own slot. |
| Accounts.LogoutRevokesRefresh | src/controllers/user.controllers.js:269-276 | After logout no refresh token for the caller is accepted. |
| Accounts.EditList | src/controllers/user.controllers.js:690-722 | A valid `remove` id pulls that id. Otherwise a valid `add` id is added once. Otherwise there is no update. Lists stay duplicate-free. |
| Accounts.Cart | src/controllers/user.controllers.js:684-734 | The call succeeds exactly when the caller has a config and a valid `add` or `remove` id is given. Only the caller's cart changes. The message reports an addition whenever `add` was sent. |
| Accounts.CartAddIdempotent | src/controllers/user.controllers.js:706-719 | Adding a course to the cart twice is adding it once. |
| Accounts.CartRemoveWins | src/controllers/user.controllers.js:691-725 | With both ids valid, the `remove` id is taken out and `add` is ignored, yet the message says "added". |
| Accounts.Favourite | src/controllers/user.controllers.js:736-783 | The call succeeds exactly when the caller has a config and a valid `add` or `remove` id is given. Only the caller's favourite list changes. |
| Service.PaymentRequestKeepsConsistent | src/controllers/payment.controller.js:13-144 | A payment request keeps every store invariant, and payment records only evolve. |
| Service.CourseRequestFrame | src/controllers/course.controller.js:118-665 | A course request changes only the catalogue and review queue, and keeps every section's course and every lecture's section in place. |
| Service.AccountRequestFrame | src/controllers/user.controllers.js:28-783 | An account request changes only users and their lists, keeping users keyed and lists duplicate-free. |
| Service.ApplyKeepsConsistent | src/controllers/payment.controller.js:13-144 | Any single request to any of the three controllers keeps all store invariants, and payment records only evolve. The payment part is cited here; the course and account parts rest on `Service.CourseRequestFrame` and `Service.AccountRequestFrame`, whose rows cite those controllers. |
| Service.RunKeepsConsistent | src/controllers/payment.controller.js:91-113 | Over any sequence of requests to the three controllers the invariants hold throughout. No payment record disappears, and a paid record never changes again (the single-settlement guard cited). The course and account steps rest on `Service.CourseRequestFrame` and `Service.AccountRequestFrame`. |

## Left out

- Controllers outside the three stateful cores are not modelled. These are `createCourse`, `getCourseDetail`, `approvalStatus`, `loginUser`, `getProfile`, `forgotPassword`, `updateUserAvatarImage`, `updateUserDetails`, `userConfig` and `allSales`. They are creation with uploads, read-only aggregation pipelines, or profile edits with no business rule of the flows above.
- The routes (src/routes/*.js) are Express wiring. `updateCoursePrice`, `updateMedia` and `updateGoals`, imported by src/routes/course.routes.js:2, are not in the course controller and are not modelled.
- src/utils/cloudinary.js and src/utils/tryCatch.js are I/O and error forwarding. Their outcomes enter as the `upload`/`destroy` parameters and as `Err` results.
- E-mail sending, cookies, HTTP statuses and response bodies, the JWT access token, `linkSessionToUser` and `console.log` are I/O. Only the mailer's success enters, as `mailOk`.
- SHA-256, bcrypt, password hashing in the user model's pre-save hook, JWT signing and verification, Razorpay's signature check and the token generators are uninterpreted inputs.
- Concurrent requests are not modelled. The code has no atomic guard, so two interleaved verifications of one order are out of scope. Requests run one after another.
- JSON `null`, numbers or arrays where the code expects a string are not modelled. Mongoose's casting of `price` is not modelled either. Prices are integers, not JavaScript floats.
- ObjectId validity is the 24-hex-digit text form. The 12-character form some bson versions also accept is not modelled, and neither is hex case normalisation.
- Payments.VerifyPayment: `requires` the caller's user document, as the authentication middleware guarantees. So the "failed to add course for user" branch (src/controllers/payment.controller.js:137) cannot be reached and is not modelled.
- A request id that is not a valid ObjectId, used in a filter on an ObjectId field (the `_id` lookups of src/controllers/course.controller.js and the lookups of `createOrder`, src/controllers/payment.controller.js:22-44), makes Mongoose throw a CastError, which the wrapper turns into a server error. The model answers that lookup's not-found error instead (`CourseNotFound`, `SectionNotFound`, `LectureNotFound`, or `InvalidCourseId` in `createOrder`). The store is unchanged either way.
- Payments.OpenOrder: a rejected `razorpay.orders.create` call (src/controllers/payment.controller.js:54) reaches the wrapper as a server error, not as "failed to create order" (line 57). The model answers `OrderCreationFailed` for both, since the gateway answer is one input. The store is unchanged either way.
- Store.Db: a Customer document per instructor and a UserConfig document per user are assumed unique, because they are maps keyed by the filter field. The source finds them with `findOneAndUpdate` on `instructor_id` and `user_id`, and the first match of duplicates is not modelled.
- Payments.MySales: the projection keeps course, paid flag and price. The `_id`, `createdAt` and `updatedAt` fields that `mysales` also projects (src/controllers/payment.controller.js:158-164) are not modelled, because the store keeps no timestamps or record ids.
- Payments.CreditTarget: which Customer document MongoDB matches for an `undefined` `instructor_id` filter is an input (`unfilteredMatch`), not a claim about MongoDB.
- Accounts.VerifyUserAccount: an unverified user with no stored token makes the source throw a TypeError, which the wrapper turns into a server error. The model answers `TokenInvalidOrExpired` instead.
- Accounts.EmailVerificationToken: the cooldown reply is an HTTP 500 response, not a thrown error. The model reports it as the error `TryAfterCooldown(expiry)`.
- Accounts.LogoutUser and Accounts.ChangePassword re-read the user by id. The model uses the middleware's document, which is the same document in a sequential run.

=== FILE: accounts.dfy ===
/** The account side of src/controllers/user.controllers.js: registration,
    the rate-limited e-mail verification token, refresh-token rotation,
    password change and reset, logout, and the cart and favourite lists.

    `now` is `Date.now()` in milliseconds. SHA-256, bcrypt's comparison, the
    JWT check, the model's token generators and the mailer are oracles that
    come in as parameters. A controller behind the authentication
    middleware gets the caller's id `me` and requires that the caller's
    user document exists. */
module Accounts {
  import opened Base
  import opened Store

  datatype AccountError =
    | FieldsRequired            // "all fields are required" and its variants
    | EmailTaken                // "user with email ... already existed"
    | DuplicateKey              // MongoDB E11000 on create
    | AlreadyVerified           // "user already verified"
    | TryAfterCooldown(expiry: int) // status 500 "try after cooldown <expiry>"
    | MailFailed                // the mailer threw
    | TokenMalformed            // "verification token not provided correctly"
    | TokenInvalidOrExpired     // "invalid verification token or expired token"
    | Unauthorized              // "unauthorized access"
    | JwtRejected               // `jwt.verify` threw
    | InvalidRefreshToken       // "invalid refresh token"
    | SamePassword              // "oldpassword and new password both are same!"
    | PasswordMismatch          // "password does not match"
    | ResetTokenInvalid         // "token invalid or expired"
    | SomethingWentWrong        // "something went wrong"

  datatype AccountReply =
    | Registered(userId: Id)
    | MailSent
    | Verified
    | Refreshed(refreshToken: string)
    | PasswordChanged(refreshToken: string)
    | PasswordReset
    | LoggedOut
    | CartSaved(cart: seq<Id>, addedMessage: bool)   // addedMessage: "course added to cart"
    | FavouriteSaved(favourite: seq<Id>)

  /** What an account controller may change: the user documents and the
      cart and favourite lists, keeping users keyed and lists free of
      duplicates. */
  predicate AccountFrame(db: Db, db': Db) {
    && db'.courses == db.courses && db'.sections == db.sections && db'.lectures == db.lectures
    && db'.reviews == db.reviews && db'.payments == db.payments && db'.revenue == db.revenue
    && (UsersKeyed(db.users) ==> UsersKeyed(db'.users))
    && (ListsAreSets(db.configs) ==> ListsAreSets(db'.configs))
  }

  predicate EmailTakenBy(users: seq<User>, email: string) {
    exists i :: 0 <= i < |users| && users[i].email == email
  }

  /** A freshly registered user: unverified, with no tokens and no
      purchases. */
  function NewUser(id: Id, username: string, email: string, password: string): User {
    User(id, username, email, password, false, None, None, None, [])
  }

  /** registerUser (lines 28-84). */
  function RegisterUser(db: Db, username: Option<string>, email: Option<string>, password: Option<string>, newId: Id)
    : (r: Step<AccountReply, AccountError>)
    ensures r.reply.Err? ==> r.db == db
    ensures r.reply.Ok? <==>
      && !Blank(username) && !Blank(email) && !Blank(password)
      && !EmailTakenBy(db.users, email.value) && !HasUser(db, newId)
    ensures r.reply.Ok? ==>
      && r.reply == Ok(Registered(newId))
      && r.db.users == db.users + [NewUser(newId, username.value, email.value, password.value)]
      && r.db == db.(users := r.db.users)
    ensures AccountFrame(db, r.db)
  {
    if Blank(username) || Blank(email) || Blank(password) then Step(db, Err(FieldsRequired))
    else if EmailTakenBy(db.users, email.value) then Step(db, Err(EmailTaken))
    else if HasUser(db, newId) then Step(db, Err(DuplicateKey))
    else
      var users := db.users + [NewUser(newId, username.value, email.value, password.value)];
      assert forall j :: 0 <= j < |db.users| ==> users[j] == db.users[j];
      Step(db.(users := users), Ok(Registered(newId)))
  }

  /** A token that exists and has not expired (`Date.now() <= expiry`; an
      absent expiry compares false). */
  predicate Live(t: Option<Token>, now: int) {
    t.Some? && now <= t.value.expiry
  }

  /** Whether emailVerificationToken writes a token to the caller's
      document: an unverified caller without a live token always gets a
      fresh one, saved before the mail goes out; one with a live token gets
      a re-issued one only while mails are left and the mail went out. */
  predicate TokenWritten(u: User, now: int, mailOk: bool) {
    var t := u.emailVerificationToken;
    !u.verified && (!Live(t, now) || (t.value.emailLimit != 0 && mailOk))
  }

  /** Whether the caller is in the cooldown: a live token with no mails
      left. */
  predicate Cooldown(u: User, now: int) {
    Live(u.emailVerificationToken, now) && u.emailVerificationToken.value.emailLimit == 0
  }

  /** emailVerificationToken (lines 88-138). `gen(old, false)` and
      `gen(old, true)` are `generateVerificationToken(false)` and
      `(true)`: the token the user document holds afterwards. A resend
      mails before saving; a fresh token is saved before it is mailed, so a
      mailer failure after the save leaves the new token stored. */
  function EmailVerificationToken(db: Db, me: Id, now: int, gen: (Option<Token>, bool) -> Token, mailOk: bool)
    : (r: Step<AccountReply, AccountError>)
    requires HasUser(db, me)
    ensures var u := Caller(db, me);
      var t := u.emailVerificationToken;
      TokenWritten(u, now, mailOk) ==>
        r.db == db.(users := db.users[CallerIndex(db, me) := u.(emailVerificationToken := Some(gen(t, !Live(t, now))))])
    ensures !TokenWritten(Caller(db, me), now, mailOk) ==> r.db == db
    ensures r.reply.Ok? <==> !Caller(db, me).verified && mailOk && !Cooldown(Caller(db, me), now)
    ensures r.reply.Ok? ==> r.reply == Ok(MailSent)
    ensures Caller(db, me).verified ==> r.reply == Err(AlreadyVerified)
    ensures !Caller(db, me).verified && Cooldown(Caller(db, me), now) ==>
      r.reply == Err(TryAfterCooldown(Caller(db, me).emailVerificationToken.value.expiry))
    ensures !Caller(db, me).verified && !Cooldown(Caller(db, me), now) && !mailOk ==> r.reply == Err(MailFailed)
    ensures AccountFrame(db, r.db)
  {
    var u := Caller(db, me);
    var t := u.emailVerificationToken;
    if u.verified then Step(db, Err(AlreadyVerified))
    else if Live(t, now) then
      if t.value.emailLimit == 0 then Step(db, Err(TryAfterCooldown(t.value.expiry)))
      else if !mailOk then Step(db, Err(MailFailed))
      else Step(SaveCaller(db, me, u.(emailVerificationToken := Some(gen(t, false)))), Ok(MailSent))
    else
      var saved := SaveCaller(db, me, u.(emailVerificationToken := Some(gen(t, true))));
      if !mailOk then Step(saved, Err(MailFailed)) else Step(saved, Ok(MailSent))
  }

  /** In the cooldown nothing is issued or stored, whatever the generator
      and the mailer would do. */
  lemma CooldownIssuesNothing(db: Db, me: Id, now: int, gen: (Option<Token>, bool) -> Token, mailOk: bool,
                              gen': (Option<Token>, bool) -> Token, mailOk': bool)
    requires HasUser(db, me) && !Caller(db, me).verified && Cooldown(Caller(db, me), now)
    ensures EmailVerificationToken(db, me, now, gen, mailOk) == EmailVerificationToken(db, me, now, gen', mailOk')
    ensures EmailVerificationToken(db, me, now, gen, mailOk).db == db
  {
  }

  /** The submitted code is present and six UTF-16 code units long once
      trimmed (`token.trim().length`). */
  predicate WellFormedCode(token: Option<string>) {
    token.Some? && Utf16Length(Trim(token.value)) == 6
  }

  /** The stored token matches the hash of the submitted code (untrimmed)
      and has not expired: `expiry < now` is expired, `expiry == now` is
      not. */
  predicate CodeAccepted(t: Option<Token>, code: string, now: int, sha256: string -> string) {
    t.Some? && t.value.token == sha256(code) && now <= t.value.expiry
  }

  /** verifyUserAccount (lines 142-188). */
  function VerifyUserAccount(db: Db, me: Id, token: Option<string>, now: int, sha256: string -> string)
    : (r: Step<AccountReply, AccountError>)
    requires HasUser(db, me)
    ensures r.reply.Err? ==> r.db == db
    ensures Caller(db, me).verified ==> r.reply == Err(AlreadyVerified)
    ensures !Caller(db, me).verified && !WellFormedCode(token) ==> r.reply == Err(TokenMalformed)
    ensures r.reply.Ok? <==>
      && !Caller(db, me).verified && WellFormedCode(token)
      && CodeAccepted(Caller(db, me).emailVerificationToken, token.value, now, sha256)
    ensures r.reply.Ok? ==>
      && r.db == db.(users := r.db.users) && HasUser(r.db, me)
      && Caller(r.db, me) == Caller(db, me).(verified := true, emailVerificationToken := None)
      && r.db.users == db.users[CallerIndex(db, me) := Caller(db, me).(verified := true, emailVerificationToken := None)]
    ensures AccountFrame(db, r.db)
  {
    var u := Caller(db, me);
    if u.verified then Step(db, Err(AlreadyVerified))
    else if !WellFormedCode(token) then Step(db, Err(TokenMalformed))
    else if !CodeAccepted(u.emailVerificationToken, token.value, now, sha256) then Step(db, Err(TokenInvalidOrExpired))
    else Step(SaveCaller(db, me, u.(verified := true, emailVerificationToken := None)), Ok(Verified))
  }

  /** A verified account cannot be verified again, with any code. */
  lemma VerifyOnlyOnce(db: Db, me: Id, token: Option<string>, now: int, sha256: string -> string,
                       token': Option<string>, now': int, sha256': string -> string)
    requires HasUser(db, me)
    ensures var r := VerifyUserAccount(db, me, token, now, sha256);
            r.reply.Ok? ==>
              HasUser(r.db, me) && VerifyUserAccount(r.db, me, token', now', sha256') == Step(r.db, Err(AlreadyVerified))
  {
  }

  /** refreshAccessToken (lines 289-322). `decode` is `jwt.verify` with the
      secret folded in (`None` when it throws); `issued` is the new refresh
      token `generateRefreshToken` signs. */
  function RefreshAccessToken(db: Db, incoming: Option<string>, decode: string -> Option<Id>, issued: string)
    : (r: Step<AccountReply, AccountError>)
    ensures r.reply.Err? ==> r.db == db
    ensures r.reply.Ok? <==>
      && incoming.Some? && incoming.value != "" && decode(incoming.value).Some?
      && HasUser(db, decode(incoming.value).value)
      && Caller(db, decode(incoming.value).value).refreshToken == incoming
    ensures r.reply.Ok? ==>
      var id := decode(incoming.value).value;
      && r.reply == Ok(Refreshed(issued))
      && r.db == db.(users := r.db.users) && HasUser(r.db, id)
      && Caller(r.db, id) == Caller(db, id).(refreshToken := Some(issued))
      && r.db.users == db.users[CallerIndex(db, id) := Caller(db, id).(refreshToken := Some(issued))]
    ensures AccountFrame(db, r.db)
  {
    if incoming.None? || incoming.value == "" then Step(db, Err(Unauthorized))
    else match decode(incoming.value)
      case None => Step(db, Err(JwtRejected))
      case Some(id) =>
        if !HasUser(db, id) then Step(db, Err(InvalidRefreshToken))
        else
          var u := Caller(db, id);
          if u.refreshToken != incoming then Step(db, Err(InvalidRefreshToken))
          else Step(SaveCaller(db, id, u.(refreshToken := Some(issued))), Ok(Refreshed(issued)))
  }

  /** Rotation: once a refresh token has been exchanged for a different
      one, presenting it again fails. */
  lemma RefreshTokenSingleUse(db: Db, incoming: Option<string>, decode: string -> Option<Id>, issued: string,
                              issued': string)
    requires RefreshAccessToken(db, incoming, decode, issued).reply.Ok?
    requires Some(issued) != incoming
    ensures var r := RefreshAccessToken(db, incoming, decode, issued);
            RefreshAccessToken(r.db, incoming, decode, issued') == Step(r.db, Err(InvalidRefreshToken))
  {
  }

  /** changePassword (lines 326-366). `matches(stored, candidate)` is the
      model's `isPasswordCorrect`; `issued` is the new refresh token. */
  function ChangePassword(db: Db, me: Id, oldPassword: Option<string>, newPassword: Option<string>,
                          matches: (string, string) -> bool, issued: string)
    : (r: Step<AccountReply, AccountError>)
    requires HasUser(db, me)
    ensures r.reply.Err? ==> r.db == db
    ensures r.reply.Ok? <==>
      && !Blank(oldPassword) && !Blank(newPassword) && oldPassword != newPassword
      && matches(Caller(db, me).password, oldPassword.value)
    ensures !Blank(oldPassword) && oldPassword == newPassword ==> r.reply == Err(SamePassword)
    ensures r.reply.Ok? ==>
      && r.reply == Ok(PasswordChanged(issued))
      && r.db == db.(users := r.db.users) && HasUser(r.db, me)
      && Caller(r.db, me) == Caller(db, me).(password := newPassword.value, refreshToken := Some(issued))
      && r.db.users == db.users[CallerIndex(db, me) := Caller(db, me).(password := newPassword.value,
                                                                      refreshToken := Some(issued))]
    ensures AccountFrame(db, r.db)
  {
    if Blank(oldPassword) || Blank(newPassword) then Step(db, Err(FieldsRequired))
    else if oldPassword == newPassword then Step(db, Err(SamePassword))
    else
      var u := Caller(db, me);
      if !matches(u.password, oldPassword.value) then Step(db, Err(PasswordMismatch))
      else Step(SaveCaller(db, me, u.(password := newPassword.value, refreshToken := Some(issued))), Ok(PasswordChanged(issued)))
  }

  /** A password change rotates the refresh token: provided the newly issued
      token differs from the one the caller held, the old one is refused
      afterwards. */
  lemma ChangePasswordRevokesRefresh(db: Db, me: Id, oldPassword: Option<string>, newPassword: Option<string>,
                                     matches: (string, string) -> bool, issued: string,
                                     decode: string -> Option<Id>, issued': string)
    requires HasUser(db, me)
    requires !Blank(oldPassword) && !Blank(newPassword) && oldPassword != newPassword
    requires matches(Caller(db, me).password, oldPassword.value)
    requires Caller(db, me).refreshToken.Some? && Caller(db, me).refreshToken != Some(issued)
    requires decode(Caller(db, me).refreshToken.value) == Some(me)
    ensures var r := ChangePassword(db, me, oldPassword, newPassword, matches, issued);
            RefreshAccessToken(r.db, Caller(db, me).refreshToken, decode, issued').reply.Err?
  {
  }

  /** A user whose reset token is the given hash and expires strictly after
      `now`. */
  predicate ResetMatch(u: User, hashed: string, now: int) {
    u.forgotPasswordToken.Some? && u.forgotPasswordToken.value.token == hashed
    && u.forgotPasswordToken.value.expiry > now
  }

  predicate HasResetMatch(users: seq<User>, hashed: string, now: int) {
    exists i :: 0 <= i < |users| && ResetMatch(users[i], hashed, now)
  }

  /** `User.findOne({"forgotPasswordToken.token", "forgotPasswordToken.expiry": {$gt: now}})`. */
  function FindResetMatch(users: seq<User>, hashed: string, now: int): (r: Option<nat>)
    ensures r.Some? ==> r.value < |users| && ResetMatch(users[r.value], hashed, now)
    ensures r.None? <==> !HasResetMatch(users, hashed, now)
  {
    FirstMatch(users, (u: User) => ResetMatch(u, hashed, now))
  }

  /** resetPassword (lines 429-472): the code is hashed untrimmed; the user
      found gets the new password and loses both the reset token and the
      refresh token. */
  function ResetPassword(db: Db, token: Option<string>, newPassword: Option<string>, now: int,
                         sha256: string -> string)
    : (r: Step<AccountReply, AccountError>)
    ensures r.reply.Err? ==> r.db == db
    ensures r.reply.Ok? <==>
      !Blank(token) && !Blank(newPassword) && HasResetMatch(db.users, sha256(token.value), now)
    ensures r.reply.Ok? ==>
      && r.reply == Ok(PasswordReset)
      && r.db == db.(users := r.db.users) && |r.db.users| == |db.users|
      && exists k :: 0 <= k < |db.users| && ResetMatch(db.users[k], sha256(token.value), now)
           && r.db.users == db.users[k := db.users[k].(password := newPassword.value,
                                                        forgotPasswordToken := None, refreshToken := None)]
    ensures AccountFrame(db, r.db)
  {
    if Blank(token) || Blank(newPassword) then Step(db, Err(FieldsRequired))
    else match FindResetMatch(db.users, sha256(token.value), now)
      case None => Step(db, Err(ResetTokenInvalid))
      case Some(k) =>
        var u := db.users[k].(password := newPassword.value, forgotPasswordToken := None, refreshToken := None);
        ReplaceKeepsKeyed(db.users, k, u);
        Step(db.(users := db.users[k := u]), Ok(PasswordReset))
  }

  /** At most one user holds a live reset token with this hash. */
  predicate UniqueResetMatch(users: seq<User>, hashed: string, now: int) {
    forall i, j ::
      (0 <= i < |users| && 0 <= j < |users| && ResetMatch(users[i], hashed, now)
       && ResetMatch(users[j], hashed, now)) ==> i == j
  }

  /** A reset code works once: the document it reset no longer holds a reset
      token, so the same code fails afterwards, provided only one user holds
      a live reset token with that hash (`UniqueResetMatch`). */
  lemma ResetSingleUse(db: Db, token: Option<string>, newPassword: Option<string>, now: int,
                       sha256: string -> string, newPassword': Option<string>, now': int)
    requires ResetPassword(db, token, newPassword, now, sha256).reply.Ok?
    requires UniqueResetMatch(db.users, sha256(token.value), now) && now <= now'
    ensures var r := ResetPassword(db, token, newPassword, now, sha256);
            ResetPassword(r.db, token, newPassword', now', sha256).reply.Err?
  {
    var r := ResetPassword(db, token, newPassword, now, sha256);
    var h := sha256(token.value);
    var k :| 0 <= k < |db.users| && ResetMatch(db.users[k], h, now)
             && r.db.users == db.users[k := db.users[k].(password := newPassword.value,
                                                          forgotPasswordToken := None, refreshToken := None)];
    forall j | 0 <= j < |r.db.users| ensures !ResetMatch(r.db.users[j], h, now') {
      if j != k {
        assert r.db.users[j] == db.users[j];
      }
    }
  }

  /** logoutUser (lines 266-285): `$unset` of the stored refresh token. */
  function LogoutUser(db: Db, me: Id): (r: Step<AccountReply, AccountError>)
    requires HasUser(db, me)
    ensures r.reply == Ok(LoggedOut)
    ensures r.db == db.(users := r.db.users) && HasUser(r.db, me)
    ensures Caller(r.db, me) == Caller(db, me).(refreshToken := None)
    ensures r.db.users == db.users[CallerIndex(db, me) := Caller(db, me).(refreshToken := None)]
    ensures AccountFrame(db, r.db)
  {
    var u := Caller(db, me);
    Step(SaveCaller(db, me, u.(refreshToken := None)), Ok(LoggedOut))
  }

  /** After logout no refresh token names the caller any more. */
  lemma LogoutRevokesRefresh(db: Db, me: Id, incoming: Option<string>, decode: string -> Option<Id>, issued: string)
    requires HasUser(db, me) && UsersKeyed(db.users)
    requires incoming.Some? && decode(incoming.value) == Some(me)
    ensures var r := LogoutUser(db, me);
            RefreshAccessToken(r.db, incoming, decode, issued).reply.Err?
  {
  }

  /** `mongoose.Types.ObjectId.isValid` on a query parameter. */
  predicate ValidId(v: Option<string>) {
    v.Some? && IsObjectId(v.value)
  }

  /** The update one request makes to a list: a valid `remove` wins and is
      pulled; otherwise a valid `add` is added to the set; otherwise there is
      no update (`None`). */
  function EditList(xs: seq<Id>, add: Option<string>, remove: Option<string>): (r: Option<seq<Id>>)
    ensures r.None? <==> !ValidId(remove) && !ValidId(add)
    ensures ValidId(remove) ==> r == Some(Pull(xs, remove.value))
    ensures !ValidId(remove) && ValidId(add) ==> r == Some(AddToSet(xs, add.value))
    ensures r.Some? && NoDuplicates(xs) ==> NoDuplicates(r.value)
  {
    if ValidId(remove) then Some(Pull(xs, remove.value))
    else if ValidId(add) then Some(AddToSet(xs, add.value))
    else None
  }

  /** cart (lines 684-734). The reply's message says "added" whenever an
      `add` parameter was sent, even when a `remove` took precedence. */
  function Cart(db: Db, me: Id, add: Option<string>, remove: Option<string>): (r: Step<AccountReply, AccountError>)
    ensures r.reply.Err? ==> r.db == db
    ensures r.reply.Ok? <==> me in db.configs && (ValidId(remove) || ValidId(add))
    ensures r.reply.Ok? ==>
      && r.db.configs.Keys == db.configs.Keys
      && r.db.configs[me] == db.configs[me].(cart := EditList(db.configs[me].cart, add, remove).value)
      && r.reply == Ok(CartSaved(r.db.configs[me].cart, add.Some?))
      && (forall k :: k in db.configs && k != me ==> r.db.configs[k] == db.configs[k])
      && r.db == db.(configs := r.db.configs)
    ensures AccountFrame(db, r.db)
  {
    if me !in db.configs then Step(db, Err(SomethingWentWrong))
    else
      var c := db.configs[me];
      match EditList(c.cart, add, remove)
      case None => Step(db, Err(SomethingWentWrong))
      case Some(cart) =>
        Step(db.(configs := db.configs[me := c.(cart := cart)]), Ok(CartSaved(cart, add.Some?)))
  }

  /** favourite (lines 736-783). */
  function Favourite(db: Db, me: Id, add: Option<string>, remove: Option<string>): (r: Step<AccountReply, AccountError>)
    ensures r.reply.Err? ==> r.db == db
    ensures r.reply.Ok? <==> me in db.configs && (ValidId(remove) || ValidId(add))
    ensures r.reply.Ok? ==>
      && r.db.configs.Keys == db.configs.Keys
      && r.db.configs[me] == db.configs[me].(favourite := EditList(db.configs[me].favourite, add, remove).value)
      && r.reply == Ok(FavouriteSaved(r.db.configs[me].favourite))
      && (forall k :: k in db.configs && k != me ==> r.db.configs[k] == db.configs[k])
      && r.db == db.(configs := r.db.configs)
    ensures AccountFrame(db, r.db)
  {
    if me !in db.configs then Step(db, Err(SomethingWentWrong))
    else
      var c := db.configs[me];
      match EditList(c.favourite, add, remove)
      case None => Step(db, Err(SomethingWentWrong))
      case Some(favourite) =>
        Step(db.(configs := db.configs[me := c.(favourite := favourite)]), Ok(FavouriteSaved(favourite)))
  }

  /** Both lists of every user hold each course at most once. */
  predicate ListsAreSets(configs: map<Id, UserConfig>) {
    forall k :: k in configs ==> NoDuplicates(configs[k].cart) && NoDuplicates(configs[k].favourite)
  }

  /** Adding a course to the cart twice is adding it once. */
  lemma CartAddIdempotent(db: Db, me: Id, add: Option<string>)
    ensures var r := Cart(db, me, add, None);
            r.reply.Ok? ==> Cart(r.db, me, add, None) == r
  {
    var r := Cart(db, me, add, None);
    if r.reply.Ok? {
      AddToSetIdempotent(db.configs[me].cart, add.value);
      assert r.db.configs[me := r.db.configs[me]] == r.db.configs;
    }
  }

  /** With both parameters valid the course named by `remove` is taken out
      and the one named by `add` is ignored, yet the message reports an
      addition. */
  lemma CartRemoveWins(db: Db, me: Id, add: Option<string>, remove: Option<string>)
    requires me in db.configs && ValidId(remove) && ValidId(add)
    ensures var r := Cart(db, me, add, remove);
            && r.reply.Ok? && r.reply.value.addedMessage
            && remove.value !in r.reply.value.cart
            && (add.value in r.reply.value.cart <==> add.value in db.configs[me].cart && add.value != remove.value)
  {
  }
}

=== FILE: base.dfy ===
/** Shared vocabulary of the controllers: optional request fields, results,
    JavaScript's `trim`, the "blank field" test every controller applies, and
    the two MongoDB array operators (`$pull`, `$addToSet`). */
module Base {

  /** A request field: `None` is JavaScript's `undefined`. */
  datatype Option<+T> = None | Some(value: T)

  /** The outcome of a controller: `Err` is an `apiError` thrown to the
      error-forwarding wrapper. */
  datatype Result<+T, +E> = Ok(value: T) | Err(error: E)

  /** The code points `String.prototype.trim` strips: WhiteSpace and
      LineTerminator of section 12.2 and 12.3 of ECMA-262. */
  predicate IsWhitespace(c: char) {
    var n := c as int;
    || n == 0x09 || n == 0x0A || n == 0x0B || n == 0x0C || n == 0x0D
    || n == 0x20 || n == 0xA0 || n == 0x1680
    || (0x2000 <= n <= 0x200A)
    || n == 0x2028 || n == 0x2029 || n == 0x202F || n == 0x205F
    || n == 0x3000 || n == 0xFEFF
  }

  predicate AllWhitespace(s: string) {
    forall i :: 0 <= i < |s| ==> IsWhitespace(s[i])
  }

  /** Drops leading whitespace: the result is a suffix of `s`, everything
      dropped is whitespace and what is left does not start with it. */
  function TrimStart(s: string): (r: string)
    ensures |r| <= |s| && r == s[|s| - |r|..]
    ensures forall i :: 0 <= i < |s| - |r| ==> IsWhitespace(s[i])
    ensures r == [] || !IsWhitespace(r[0])
  {
    if s == [] || !IsWhitespace(s[0]) then s else TrimStart(s[1..])
  }

  /** Drops trailing whitespace: the result is a prefix of `s`, everything
      dropped is whitespace and what is left does not end with it. */
  function TrimEnd(s: string): (r: string)
    ensures |r| <= |s| && r == s[..|r|]
    ensures forall i :: |r| <= i < |s| ==> IsWhitespace(s[i])
    ensures r == [] || !IsWhitespace(r[|r| - 1])
  {
    if s == [] || !IsWhitespace(s[|s| - 1]) then s else TrimEnd(s[..|s| - 1])
  }

  /** A prefix `r` of a suffix `t` of `s`, with whitespace dropped on both
      sides, is a slice of `s` with whitespace around it. */
  lemma SliceOfSlice(s: string, t: string, r: string)
    requires |t| <= |s| && t == s[|s| - |t|..] && forall i :: 0 <= i < |s| - |t| ==> IsWhitespace(s[i])
    requires |r| <= |t| && r == t[..|r|] && forall i :: |r| <= i < |t| ==> IsWhitespace(t[i])
    ensures exists i, j :: 0 <= i <= j <= |s| && r == s[i..j] && AllWhitespace(s[..i]) && AllWhitespace(s[j..])
  {
    var i := |s| - |t|;
    var j := i + |r|;
    assert r == s[i..j];
    assert AllWhitespace(s[..i]);
    assert forall k :: 0 <= k < |s| - j ==> s[j..][k] == t[|r| + k];
    assert AllWhitespace(s[j..]);
  }

  /** JavaScript's `s.trim()`. */
  function Trim(s: string): (r: string)
    ensures |r| <= |s|
    ensures r == [] || (!IsWhitespace(r[0]) && !IsWhitespace(r[|r| - 1]))
    ensures r == [] <==> AllWhitespace(s)
    ensures exists i, j :: 0 <= i <= j <= |s| && r == s[i..j] && AllWhitespace(s[..i]) && AllWhitespace(s[j..])
  {
    var t := TrimStart(s);
    var r := TrimEnd(t);
    SliceOfSlice(s, t, r);
    r
  }

  /** A missing field, or one made of whitespace only. */
  predicate Blank(v: Option<string>) {
    v.None? || AllWhitespace(v.value)
  }

  /** Blank is the controllers' `value === undefined || value.trim() === ""`. */
  lemma BlankIsEmptyAfterTrim(v: Option<string>)
    ensures Blank(v) <==> (v.None? || Trim(v.value) == [])
  {
  }

  /** JavaScript's `length`: UTF-16 code units. Each character counts one
      unit, except a code point above U+FFFF, which is a surrogate pair and
      counts two. */
  function Utf16Length(s: string): (n: nat)
    ensures |s| <= n <= 2 * |s|
    ensures |s| == 1 ==> (n == 2 <==> s[0] as int > 0xFFFF)
  {
    if s == [] then 0 else (if s[0] as int > 0xFFFF then 2 else 1) + Utf16Length(s[1..])
  }

  /** The unit count of a text is the sum of the counts of its parts, so
      with the single-character clause it is the per-character sum. */
  lemma {:induction false} Utf16LengthAppend(a: string, b: string)
    ensures Utf16Length(a + b) == Utf16Length(a) + Utf16Length(b)
  {
    if a == [] {
      assert a + b == b;
    } else {
      assert (a + b)[0] == a[0];
      assert (a + b)[1..] == a[1..] + b;
      Utf16LengthAppend(a[1..], b);
    }
  }

  /** Code units and code points agree exactly when nothing lies above the
      Basic Multilingual Plane. */
  lemma {:induction false} Utf16LengthBmp(s: string)
    ensures Utf16Length(s) == |s| <==> forall i :: 0 <= i < |s| ==> s[i] as int <= 0xFFFF
  {
    if s != [] {
      Utf16LengthBmp(s[1..]);
      assert forall i :: 1 <= i < |s| ==> s[i] == s[1..][i - 1];
    }
  }

  predicate NoDuplicates<T(==)>(xs: seq<T>) {
    forall i, j :: 0 <= i < j < |xs| ==> xs[i] != xs[j]
  }

  /** MongoDB's `$pull` of one value: every occurrence of `x` goes, the rest
      keep their order. */
  function Pull<T(==,!new)>(xs: seq<T>, x: T): (r: seq<T>)
    ensures forall y :: y in r <==> y in xs && y != x
    ensures x !in xs ==> r == xs
    ensures |r| == |xs| - multiset(xs)[x]
    ensures NoDuplicates(xs) ==> NoDuplicates(r)
  {
    if xs == [] then []
    else
      assert xs == [xs[0]] + xs[1..];
      var rest := Pull(xs[1..], x);
      if xs[0] == x then rest
      else
        assert NoDuplicates(xs) ==> xs[0] !in xs[1..] && NoDuplicates(xs[1..]);
        [xs[0]] + rest
  }

  /** `$pull` on a list with a known head. */
  lemma PullCons<T(!new)>(y: T, ys: seq<T>, x: T)
    ensures Pull([y] + ys, x) == if y == x then Pull(ys, x) else [y] + Pull(ys, x)
  {
    var zs := [y] + ys;
    assert zs[0] == y && zs[1..] == ys;
  }

  lemma ConcatAssoc<T>(a: seq<T>, b: seq<T>, c: seq<T>)
    ensures a + (b + c) == (a + b) + c
  {
  }

  /** One step of `PullAppend`: putting an element in front of both the
      concatenation and its first part. */
  lemma PullAppendStep<T(!new)>(y: T, rest: seq<T>, ys: seq<T>, x: T)
    requires Pull(rest + ys, x) == Pull(rest, x) + Pull(ys, x)
    ensures Pull([y] + rest + ys, x) == Pull([y] + rest, x) + Pull(ys, x)
  {
    ConcatAssoc([y], rest, ys);
    PullCons(y, rest + ys, x);
    PullCons(y, rest, x);
    ConcatAssoc([y], Pull(rest, x), Pull(ys, x));
  }

  /** `$pull` works element by element: pulling from a concatenation is
      pulling from each part, so the kept elements keep their order and
      their multiplicity. */
  lemma {:induction false} PullAppend<T(!new)>(xs: seq<T>, ys: seq<T>, x: T)
    ensures Pull(xs + ys, x) == Pull(xs, x) + Pull(ys, x)
    decreases |xs|
  {
    if xs == [] {
      assert xs + ys == ys;
    } else {
      var y, rest := xs[0], xs[1..];
      assert xs == [y] + rest;
      PullAppend(rest, ys, x);
      PullAppendStep(y, rest, ys, x);
    }
  }

  /** On a single element `$pull` keeps it exactly when it differs from
      the value. */
  lemma PullOne<T(!new)>(y: T, x: T)
    ensures Pull([y], x) == if y == x then [] else [y]
  {
    PullCons(y, [], x);
    assert [y] + [] == [y];
  }

  /** MongoDB's `$addToSet` of one value: appended only when not present. */
  function AddToSet<T(==,!new)>(xs: seq<T>, x: T): (r: seq<T>)
    ensures forall y :: y in r <==> y in xs || y == x
    ensures xs <= r && |r| <= |xs| + 1
    ensures x in xs ==> r == xs
    ensures NoDuplicates(xs) ==> NoDuplicates(r)
  {
    if x in xs then xs else xs + [x]
  }

  /** Adding twice is adding once, and a pull after an add leaves no copy. */
  lemma AddToSetIdempotent<T(!new)>(xs: seq<T>, x: T)
    ensures AddToSet(AddToSet(xs, x), x) == AddToSet(xs, x)
    ensures x !in Pull(AddToSet(xs, x), x)
  {
  }

  /** Pulling twice is pulling once. */
  lemma PullIdempotent<T(!new)>(xs: seq<T>, x: T)
    ensures Pull(Pull(xs, x), x) == Pull(xs, x)
  {
  }

  predicate IsHexDigit(c: char) {
    ('0' <= c <= '9') || ('a' <= c <= 'f') || ('A' <= c <= 'F')
  }

  /** The 24-hex-digit text form of a MongoDB ObjectId. */
  predicate IsObjectId(s: string) {
    |s| == 24 && forall i :: 0 <= i < |s| ==> IsHexDigit(s[i])
  }

  /** An ObjectId is never a blank field. */
  lemma ObjectIdNotBlank(s: string)
    requires IsObjectId(s)
    ensures !Blank(Some(s))
  {
    assert !IsWhitespace(s[0]);
  }
}

=== FILE: courses.dfy ===
/** The instructor's side of src/controllers/course.controller.js: the
    course -> section -> lecture hierarchy and its media.

    Every lookup is filtered by the calling instructor's id (`me`, the
    document the instructor middleware loaded). Cloudinary is a pair of
    oracles: `upload` is what `uploadCloudinary` returned (`None` is its
    `null`), `destroy` is the `result` of `cloudinary.uploader.destroy`.
    `newId` is the ObjectId the store assigns to a created document; one
    that is already taken fails with a duplicate-key error. */
module Courses {
  import opened Base
  import opened Store

  datatype CourseError =
    | FieldsRequired   // "all fields are required", "... id not given"
    | CourseNotFound   // "course not found"
    | SectionNotFound  // "section not found"
    | LectureNotFound  // "lecture not found"
    | UploadFailed     // "falied to upload lecture video", "failed to upload new thumbnail"
    | DestroyFailed    // "failed to destroy", "failed to delete previous thumbnail"
    | NoFieldGiven     // "no field is given to update"
    | LecturesRemain   // "first delete all lectures of the section"
    | SectionsRemain   // "first delete all section of the course"
    | DuplicateKey     // MongoDB E11000 on create

  datatype CourseReply =
    | SectionCreated(sectionId: Id)
    | LectureCreated(lectureId: Id)
    | LectureSaved(lecture: Lecture)
    | SectionSaved(section: Section)
    | CourseSaved(course: Course)
    | Deleted
    | Submitted

  /** The `result` field of a Cloudinary destroy: only "not found" is
      treated as a failure. */
  datatype Destroy = Destroyed | NotFound

  predicate OwnsCourse(db: Db, me: Id, id: Id) {
    id in db.courses && db.courses[id].instructorId == me
  }

  predicate OwnsSection(db: Db, me: Id, id: Id) {
    id in db.sections && db.sections[id].instructorId == me
  }

  predicate OwnsLecture(db: Db, me: Id, id: Id) {
    id in db.lectures && db.lectures[id].instructorId == me
  }

  /** `Lecture.find({section_id})` is not empty. */
  predicate HasLectures(db: Db, sectionId: Id) {
    exists l :: l in db.lectures && db.lectures[l].sectionId == sectionId
  }

  /** `Section.find({course_id})` is not empty. */
  predicate HasSections(db: Db, courseId: Id) {
    exists s :: s in db.sections && db.sections[s].courseId == courseId
  }

  /** `lecture.resource?.public_id` is truthy: there is an old asset to
      destroy. */
  predicate HasAsset(resource: Option<Media>) {
    resource.Some? && resource.value.publicId != ""
  }

  /** A section's course exists and belongs to the section's instructor. */
  predicate CourseOf(courses: map<Id, Course>, s: Section) {
    s.courseId in courses && courses[s.courseId].instructorId == s.instructorId
  }

  /** A lecture's section exists and belongs to the lecture's instructor. */
  predicate SectionOf(sections: map<Id, Section>, l: Lecture) {
    l.sectionId in sections && sections[l.sectionId].instructorId == l.instructorId
  }

  predicate SectionsLinked(courses: map<Id, Course>, sections: map<Id, Section>) {
    forall k :: k in sections ==> CourseOf(courses, sections[k])
  }

  predicate LecturesLinked(sections: map<Id, Section>, lectures: map<Id, Lecture>) {
    forall k :: k in lectures ==> SectionOf(sections, lectures[k])
  }

  /** Store invariant of the hierarchy: every section's course exists and
      every lecture's section exists, and a child belongs to the instructor
      of its parent. */
  predicate Integrity(db: Db) {
    SectionsLinked(db.courses, db.sections) && LecturesLinked(db.sections, db.lectures)
  }

  /** What a course controller may change: the catalogue and the review
      queue, keeping the hierarchy linked. */
  predicate CourseFrame(db: Db, db': Db) {
    && db'.payments == db.payments && db'.revenue == db.revenue
    && db'.users == db.users && db'.configs == db.configs
    && (Integrity(db) ==> Integrity(db'))
  }

  /** Storing a section whose course exists keeps the sections linked, and
      as long as the instructor of a replaced section stays the same its
      lectures stay linked too. */
  lemma PutSection(db: Db, k: Id, s: Section)
    requires CourseOf(db.courses, s)
    requires k in db.sections ==> db.sections[k].instructorId == s.instructorId
    ensures Integrity(db) ==> Integrity(db.(sections := db.sections[k := s]))
  {
    if Integrity(db) {
      var sections := db.sections[k := s];
      forall l | l in db.lectures ensures SectionOf(sections, db.lectures[l]) {
        assert SectionOf(db.sections, db.lectures[l]);
      }
    }
  }

  /** Replacing a section by one with the same course and instructor keeps
      the hierarchy linked. */
  lemma ReplaceSection(db: Db, k: Id, s: Section)
    requires k in db.sections
    requires s.courseId == db.sections[k].courseId && s.instructorId == db.sections[k].instructorId
    ensures Integrity(db) ==> Integrity(db.(sections := db.sections[k := s]))
  {
    if Integrity(db) {
      assert CourseOf(db.courses, db.sections[k]);
      PutSection(db, k, s);
    }
  }

  /** Replacing a lecture by one with the same section and instructor keeps
      the hierarchy linked. */
  lemma ReplaceLecture(db: Db, k: Id, l: Lecture)
    requires k in db.lectures
    requires l.sectionId == db.lectures[k].sectionId && l.instructorId == db.lectures[k].instructorId
    ensures Integrity(db) ==> Integrity(db.(lectures := db.lectures[k := l]))
  {
    if Integrity(db) {
      assert SectionOf(db.sections, db.lectures[k]);
      PutLecture(db, k, l);
    }
  }

  /** Storing a lecture whose section exists keeps the lectures linked. */
  lemma PutLecture(db: Db, k: Id, l: Lecture)
    requires SectionOf(db.sections, l)
    ensures Integrity(db) ==> Integrity(db.(lectures := db.lectures[k := l]))
  {
  }

  /** Replacing a course without changing its instructor keeps its
      sections linked. */
  lemma PutCourse(db: Db, k: Id, c: Course)
    requires k in db.courses && db.courses[k].instructorId == c.instructorId
    ensures Integrity(db) ==> Integrity(db.(courses := db.courses[k := c]))
  {
    if Integrity(db) {
      var courses := db.courses[k := c];
      forall j | j in db.sections ensures CourseOf(courses, db.sections[j]) {
        assert CourseOf(db.courses, db.sections[j]);
      }
    }
  }

  lemma DropLecture(db: Db, k: Id)
    ensures Integrity(db) ==> Integrity(db.(lectures := db.lectures - {k}))
  {
  }

  /** Only a section no lecture points at can go. */
  lemma DropSection(db: Db, k: Id)
    requires !HasLectures(db, k)
    ensures Integrity(db) ==> Integrity(db.(sections := db.sections - {k}))
  {
    if Integrity(db) {
      var sections := db.sections - {k};
      forall l | l in db.lectures ensures SectionOf(sections, db.lectures[l]) {
        assert SectionOf(db.sections, db.lectures[l]);
      }
    }
  }

  /** Only a course no section points at can go. */
  lemma DropCourse(db: Db, k: Id)
    requires !HasSections(db, k)
    ensures Integrity(db) ==> Integrity(db.(courses := db.courses - {k}))
  {
    if Integrity(db) {
      var courses := db.courses - {k};
      forall j | j in db.sections ensures CourseOf(courses, db.sections[j]) {
        assert CourseOf(db.courses, db.sections[j]);
      }
    }
  }

  /** createSection (lines 118-157). */
  function CreateSection(db: Db, me: Id, courseId: Option<string>, title: Option<string>, newId: Id)
    : (r: Step<CourseReply, CourseError>)
    ensures r.reply.Err? ==> r.db == db
    ensures r.reply.Ok? <==>
      !Blank(title) && !Blank(courseId) && OwnsCourse(db, me, courseId.value) && newId !in db.sections
    ensures r.reply.Ok? ==>
      && r.reply == Ok(SectionCreated(newId))
      && r.db.sections.Keys == db.sections.Keys + {newId}
      && r.db.sections[newId] == Section(courseId.value, me, title.value)
      && (forall s :: s in db.sections ==> r.db.sections[s] == db.sections[s])
      && r.db == db.(sections := r.db.sections)
    ensures CourseFrame(db, r.db)
  {
    if Blank(title) || Blank(courseId) then Step(db, Err(FieldsRequired))
    else if !OwnsCourse(db, me, courseId.value) then Step(db, Err(CourseNotFound))
    else if newId in db.sections then Step(db, Err(DuplicateKey))
    else
      var section := Section(courseId.value, me, title.value);
      PutSection(db, newId, section);
      Step(db.(sections := db.sections[newId := section]), Ok(SectionCreated(newId)))
  }

  /** addLecturetitle (lines 161-203): the section must match the given
      section id, course id and instructor all at once. */
  function AddLecture(db: Db, me: Id, title: Option<string>, courseId: Option<string>,
                      sectionId: Option<string>, newId: Id)
    : (r: Step<CourseReply, CourseError>)
    ensures r.reply.Err? ==> r.db == db
    ensures r.reply.Ok? <==>
      && !Blank(title) && !Blank(courseId) && !Blank(sectionId)
      && OwnsSection(db, me, sectionId.value) && db.sections[sectionId.value].courseId == courseId.value
      && newId !in db.lectures
    ensures r.reply.Ok? ==>
      && r.reply == Ok(LectureCreated(newId))
      && r.db.lectures.Keys == db.lectures.Keys + {newId}
      && r.db.lectures[newId] == Lecture(sectionId.value, me, title.value, None, None)
      && (forall l :: l in db.lectures ==> r.db.lectures[l] == db.lectures[l])
      && r.db == db.(lectures := r.db.lectures)
    ensures CourseFrame(db, r.db)
  {
    if Blank(title) || Blank(courseId) || Blank(sectionId) then Step(db, Err(FieldsRequired))
    else if !(OwnsSection(db, me, sectionId.value) && db.sections[sectionId.value].courseId == courseId.value) then
      Step(db, Err(SectionNotFound))
    else if newId in db.lectures then Step(db, Err(DuplicateKey))
    else
      var lecture := Lecture(sectionId.value, me, title.value, None, None);
      PutLecture(db, newId, lecture);
      Step(db.(lectures := db.lectures[newId := lecture]), Ok(LectureCreated(newId)))
  }

  /** addNewResourceToLecture (lines 13-61), behind addVideoToLecture
      (`kind` Video) and addfileTOLecture (`kind` Raw). The new file is
      uploaded first; the old asset, if any, is destroyed after; the lecture
      is saved last. */
  function AddResource(db: Db, me: Id, path: Option<string>, lectureId: Option<string>,
                       kind: ResourceKind, upload: Option<Media>, destroy: Destroy)
    : (r: Step<CourseReply, CourseError>)
    ensures r.reply.Err? ==> r.db == db
    ensures r.reply.Ok? <==>
      && !Blank(path) && !Blank(lectureId) && OwnsLecture(db, me, lectureId.value) && upload.Some?
      && (HasAsset(db.lectures[lectureId.value].resource) ==> destroy.Destroyed?)
    ensures r.reply.Ok? ==>
      var prev := db.lectures[lectureId.value];
      && r.db.lectures.Keys == db.lectures.Keys
      && r.db.lectures[lectureId.value] == prev.(resource := upload, kind := Some(kind))
      && r.reply == Ok(LectureSaved(r.db.lectures[lectureId.value]))
      && (forall l :: l in db.lectures && l != lectureId.value ==> r.db.lectures[l] == db.lectures[l])
      && r.db == db.(lectures := r.db.lectures)
    ensures CourseFrame(db, r.db)
  {
    if Blank(path) || Blank(lectureId) then Step(db, Err(FieldsRequired))
    else if !OwnsLecture(db, me, lectureId.value) then Step(db, Err(LectureNotFound))
    else if upload.None? then Step(db, Err(UploadFailed))
    else
      var lecture := db.lectures[lectureId.value];
      if HasAsset(lecture.resource) && destroy.NotFound? then Step(db, Err(DestroyFailed))
      else
        var saved := lecture.(resource := upload, kind := Some(kind));
        ReplaceLecture(db, lectureId.value, saved);
        Step(db.(lectures := db.lectures[lectureId.value := saved]), Ok(LectureSaved(saved)))
  }

  /** updateLectureTitle (lines 240-278): `findOneAndUpdate` of the title of
      a lecture of the caller. */
  function UpdateLectureTitle(db: Db, me: Id, title: Option<string>, lectureId: Option<string>)
    : (r: Step<CourseReply, CourseError>)
    ensures r.reply.Err? ==> r.db == db
    ensures r.reply.Ok? <==> !Blank(title) && !Blank(lectureId) && OwnsLecture(db, me, lectureId.value)
    ensures r.reply.Ok? ==>
      && r.db.lectures.Keys == db.lectures.Keys
      && r.db.lectures[lectureId.value] == db.lectures[lectureId.value].(title := title.value)
      && r.reply == Ok(LectureSaved(r.db.lectures[lectureId.value]))
      && (forall l :: l in db.lectures && l != lectureId.value ==> r.db.lectures[l] == db.lectures[l])
      && r.db == db.(lectures := r.db.lectures)
    ensures CourseFrame(db, r.db)
  {
    if Blank(title) || Blank(lectureId) then Step(db, Err(FieldsRequired))
    else if !OwnsLecture(db, me, lectureId.value) then Step(db, Err(LectureNotFound))
    else
      var saved := db.lectures[lectureId.value].(title := title.value);
      ReplaceLecture(db, lectureId.value, saved);
      Step(db.(lectures := db.lectures[lectureId.value := saved]), Ok(LectureSaved(saved)))
  }

  /** updateSecitonTitle (lines 282-319). */
  function UpdateSectionTitle(db: Db, me: Id, title: Option<string>, sectionId: Option<string>)
    : (r: Step<CourseReply, CourseError>)
    ensures r.reply.Err? ==> r.db == db
    ensures r.reply.Ok? <==> !Blank(title) && !Blank(sectionId) && OwnsSection(db, me, sectionId.value)
    ensures r.reply.Ok? ==>
      && r.db.sections.Keys == db.sections.Keys
      && r.db.sections[sectionId.value] == db.sections[sectionId.value].(title := title.value)
      && r.reply == Ok(SectionSaved(r.db.sections[sectionId.value]))
      && (forall s :: s in db.sections && s != sectionId.value ==> r.db.sections[s] == db.sections[s])
      && r.db == db.(sections := r.db.sections)
    ensures CourseFrame(db, r.db)
  {
    if Blank(title) || Blank(sectionId) then Step(db, Err(FieldsRequired))
    else if !OwnsSection(db, me, sectionId.value) then Step(db, Err(SectionNotFound))
    else
      var saved := db.sections[sectionId.value].(title := title.value);
      ReplaceSection(db, sectionId.value, saved);
      Step(db.(sections := db.sections[sectionId.value := saved]), Ok(SectionSaved(saved)))
  }

  /** `req.file?.path` is truthy: a new thumbnail was sent. */
  predicate NewFile(path: Option<string>) {
    path.Some? && path.value != ""
  }

  /** updateCourseDetails (lines 323-394). For a new thumbnail the old one
      is destroyed first and the new one uploaded after. */
  function UpdateCourseDetails(
    db: Db, me: Id, courseId: Id,
    price: Option<int>, description: Option<string>, title: Option<string>,
    thumbnail: Option<string>, destroy: Destroy, upload: Option<Media>)
    : (r: Step<CourseReply, CourseError>)
    ensures r.reply.Err? ==> r.db == db
    ensures r.reply.Ok? <==>
      && (price.Some? || description.Some? || title.Some? || NewFile(thumbnail))
      && OwnsCourse(db, me, courseId)
      && (NewFile(thumbnail) ==> destroy.Destroyed? && upload.Some?)
    ensures r.reply.Ok? ==> r.db.courses.Keys == db.courses.Keys
    ensures r.reply.Ok? ==>
      var prev := db.courses[courseId];
      var c := r.db.courses[courseId];
      && (price.Some? ==> c.price == price.value) && (price.None? ==> c.price == prev.price)
      && (description.Some? ==> c.description == description.value)
      && (description.None? ==> c.description == prev.description)
      && (title.Some? ==> c.title == title.value) && (title.None? ==> c.title == prev.title)
      && (NewFile(thumbnail) ==> c.thumbnail == upload.value)
      && (!NewFile(thumbnail) ==> c.thumbnail == prev.thumbnail)
      && c.instructorId == prev.instructorId && c.approved == prev.approved
      && r.reply == Ok(CourseSaved(c))
      && (forall k :: k in db.courses && k != courseId ==> r.db.courses[k] == db.courses[k])
      && r.db == db.(courses := r.db.courses)
    ensures CourseFrame(db, r.db)
  {
    if !(price.Some? || description.Some? || title.Some?) && !NewFile(thumbnail) then Step(db, Err(NoFieldGiven))
    else if !OwnsCourse(db, me, courseId) then Step(db, Err(CourseNotFound))
    else if NewFile(thumbnail) && destroy.NotFound? then Step(db, Err(DestroyFailed))
    else if NewFile(thumbnail) && upload.None? then Step(db, Err(UploadFailed))
    else
      var prev := db.courses[courseId];
      var thumb := if NewFile(thumbnail) then upload.value else prev.thumbnail;
      // a body field overwrites the stored one exactly when it is present
      // (not `undefined`); an empty string counts as present
      var saved := prev.(price := if price.Some? then price.value else prev.price,
                        description := if description.Some? then description.value else prev.description,
                        title := if title.Some? then title.value else prev.title,
                        thumbnail := thumb);
      PutCourse(db, courseId, saved);
      Step(db.(courses := db.courses[courseId := saved]), Ok(CourseSaved(saved)))
  }

  /** deleteLecture (lines 398-444). The guard after the delete tests the
      controller itself rather than the deleted document, so it never
      fires; the delete of a found lecture always succeeds. */
  function DeleteLecture(db: Db, me: Id, lectureId: Option<string>, destroy: Destroy)
    : (r: Step<CourseReply, CourseError>)
    ensures r.reply.Err? ==> r.db == db
    ensures r.reply.Ok? <==>
      && !Blank(lectureId) && OwnsLecture(db, me, lectureId.value)
      && (HasAsset(db.lectures[lectureId.value].resource) ==> destroy.Destroyed?)
    ensures r.reply.Ok? ==>
      && r.reply == Ok(Deleted)
      && r.db.lectures.Keys == db.lectures.Keys - {lectureId.value}
      && (forall l :: l in r.db.lectures ==> r.db.lectures[l] == db.lectures[l])
      && r.db == db.(lectures := r.db.lectures)
    ensures CourseFrame(db, r.db)
  {
    if Blank(lectureId) then Step(db, Err(FieldsRequired))
    else if !OwnsLecture(db, me, lectureId.value) then Step(db, Err(LectureNotFound))
    else if HasAsset(db.lectures[lectureId.value].resource) && destroy.NotFound? then Step(db, Err(DestroyFailed))
    else
      DropLecture(db, lectureId.value);
      Step(db.(lectures := db.lectures - {lectureId.value}), Ok(Deleted))
  }

  /** deleteSection (lines 448-489): refused while any lecture points at the
      section. */
  function DeleteSection(db: Db, me: Id, sectionId: Option<string>)
    : (r: Step<CourseReply, CourseError>)
    ensures r.reply.Err? ==> r.db == db
    ensures r.reply.Ok? <==>
      !Blank(sectionId) && OwnsSection(db, me, sectionId.value) && !HasLectures(db, sectionId.value)
    ensures r.reply.Ok? ==>
      && r.reply == Ok(Deleted)
      && r.db.sections.Keys == db.sections.Keys - {sectionId.value}
      && (forall s :: s in r.db.sections ==> r.db.sections[s] == db.sections[s])
      && r.db == db.(sections := r.db.sections)
    ensures CourseFrame(db, r.db)
  {
    if Blank(sectionId) then Step(db, Err(FieldsRequired))
    else if !OwnsSection(db, me, sectionId.value) then Step(db, Err(SectionNotFound))
    else if HasLectures(db, sectionId.value) then Step(db, Err(LecturesRemain))
    else
      DropSection(db, sectionId.value);
      Step(db.(sections := db.sections - {sectionId.value}), Ok(Deleted))
  }

  /** deleteCourse (lines 491-539): refused while any section points at the
      course; the thumbnail is destroyed before the course is deleted. */
  function DeleteCourse(db: Db, me: Id, courseId: Option<string>, destroy: Destroy)
    : (r: Step<CourseReply, CourseError>)
    ensures r.reply.Err? ==> r.db == db
    ensures r.reply.Ok? <==>
      && !Blank(courseId) && OwnsCourse(db, me, courseId.value) && !HasSections(db, courseId.value)
      && destroy.Destroyed?
    ensures r.reply.Ok? ==>
      && r.reply == Ok(Deleted)
      && r.db.courses.Keys == db.courses.Keys - {courseId.value}
      && (forall k :: k in r.db.courses ==> r.db.courses[k] == db.courses[k])
      && r.db == db.(courses := r.db.courses)
    ensures CourseFrame(db, r.db)
  {
    if Blank(courseId) then Step(db, Err(FieldsRequired))
    else if !OwnsCourse(db, me, courseId.value) then Step(db, Err(CourseNotFound))
    else if HasSections(db, courseId.value) then Step(db, Err(SectionsRemain))
    else if destroy.NotFound? then Step(db, Err(DestroyFailed))
    else
      DropCourse(db, courseId.value);
      Step(db.(courses := db.courses - {courseId.value}), Ok(Deleted))
  }

  /** submitForApproval (lines 627-665): every submission appends a new
      review request, named after the caller's username. */
  function SubmitForApproval(db: Db, me: Id, instructorName: string, courseId: Option<string>)
    : (r: Step<CourseReply, CourseError>)
    ensures r.reply.Err? ==> r.db == db
    ensures r.reply.Ok? <==> !Blank(courseId) && OwnsCourse(db, me, courseId.value)
    ensures r.reply.Ok? ==>
      && r.reply == Ok(Submitted)
      && r.db.reviews == db.reviews + [Review(courseId.value, instructorName)]
      && r.db == db.(reviews := r.db.reviews)
    ensures CourseFrame(db, r.db)
  {
    if Blank(courseId) then Step(db, Err(FieldsRequired))
    else if !OwnsCourse(db, me, courseId.value) then Step(db, Err(CourseNotFound))
    else Step(db.(reviews := db.reviews + [Review(courseId.value, instructorName)]), Ok(Submitted))
  }

  /** Deleting a section just created, before any lecture is added to it,
      gives back the store as it was. */
  lemma DeleteSectionUndoesCreate(db: Db, me: Id, courseId: Option<string>, title: Option<string>, newId: Id)
    requires Integrity(db) && IsObjectId(newId)
    requires CreateSection(db, me, courseId, title, newId).reply.Ok?
    ensures DeleteSection(CreateSection(db, me, courseId, title, newId).db, me, Some(newId)) == Step(db, Ok(Deleted))
  {
    var r := CreateSection(db, me, courseId, title, newId);
    ObjectIdNotBlank(newId);
    forall l | l in r.db.lectures ensures r.db.lectures[l].sectionId != newId {
      assert SectionOf(db.sections, db.lectures[l]);
    }
    assert r.db.sections - {newId} == db.sections;
  }

  /** Deleting a lecture just created gives back the store as it was,
      whatever Cloudinary would answer: a new lecture has no asset. */
  lemma DeleteLectureUndoesAdd(db: Db, me: Id, title: Option<string>, courseId: Option<string>,
                               sectionId: Option<string>, newId: Id, destroy: Destroy)
    requires IsObjectId(newId)
    requires AddLecture(db, me, title, courseId, sectionId, newId).reply.Ok?
    ensures DeleteLecture(AddLecture(db, me, title, courseId, sectionId, newId).db, me, Some(newId), destroy)
            == Step(db, Ok(Deleted))
  {
    var r := AddLecture(db, me, title, courseId, sectionId, newId);
    ObjectIdNotBlank(newId);
    assert r.db.lectures - {newId} == db.lectures;
  }

  /** Setting a title twice is setting it once. */
  lemma UpdateSectionTitleIdempotent(db: Db, me: Id, title: Option<string>, sectionId: Option<string>)
    ensures var r := UpdateSectionTitle(db, me, title, sectionId);
            r.reply.Ok? ==> UpdateSectionTitle(r.db, me, title, sectionId) == r
  {
    var r := UpdateSectionTitle(db, me, title, sectionId);
    if r.reply.Ok? {
      assert r.db.sections[sectionId.value := r.db.sections[sectionId.value]] == r.db.sections;
    }
  }

  /** The old asset is only consulted when there is one: for a lecture
      without one, Cloudinary's destroy answer plays no part. */
  lemma AddResourceIgnoresDestroyWithoutAsset(db: Db, me: Id, path: Option<string>, lectureId: Option<string>,
                                              kind: ResourceKind, upload: Option<Media>)
    requires !Blank(lectureId) && lectureId.value in db.lectures
    requires !HasAsset(db.lectures[lectureId.value].resource)
    ensures AddResource(db, me, path, lectureId, kind, upload, Destroyed)
            == AddResource(db, me, path, lectureId, kind, upload, NotFound)
  {
  }

  /** A submission is never deduplicated: submitting twice queues two
      review requests for the course. */
  lemma SubmitTwiceQueuesTwo(db: Db, me: Id, instructorName: string, courseId: Option<string>)
    requires SubmitForApproval(db, me, instructorName, courseId).reply.Ok?
    ensures var r := SubmitForApproval(db, me, instructorName, courseId);
            var r' := SubmitForApproval(r.db, me, instructorName, courseId);
            r'.reply.Ok? && |r'.db.reviews| == |db.reviews| + 2
            && r'.db.reviews[|db.reviews|] == r'.db.reviews[|db.reviews| + 1]
  {
  }
}

=== FILE: payments.dfy ===
/** The single-course purchase flow of src/controllers/payment.controller.js:
    `createOrder` opens (or re-finds) a Payment record for one course,
    `verifyPayment` settles it — marks it paid, credits the instructor's
    revenue and grants the course to the buyer — and `mysales` lists the
    records of one instructor.

    Razorpay is a pair of oracles: `gateway` answers an order-creation request
    with an order id (or nothing), `verify` is `validatePaymentVerification`
    with the secret folded in. */
module Payments {
  import opened Base
  import opened Store

  datatype PayError =
    | CourseIdNotGiven      // "course id not given "
    | InvalidCourseId       // "invalid course id"
    | OrderCreationFailed   // "failed to create order"
    | FieldsRequired        // "all fields are required"
    | OrderDoesNotExist     // " order does not exist"
    | InvalidSignature      // "invalid signature"
    | FailedToAddMoney      // "failed to add money"

  datatype PayReply =
    | ExistingOrder(orderId: Id)   // "order id "
    | NewOrder(orderId: Id)        // "order created successfully"
    | CourseAdded                  // "course added successfully "

  /** What `razorpay.orders.create` is asked for: an amount in paise and a
      currency code. */
  datatype Intent = Intent(amount: int, currency: string)

  /** A record of `user`'s order for `course`, paid or not. */
  predicate OrderOf(p: Payment, user: Id, course: Id) {
    p.userId == user && p.courseId == course
  }

  predicate HasOrder(ps: seq<Payment>, user: Id, course: Id) {
    exists i :: 0 <= i < |ps| && OrderOf(ps[i], user, course)
  }

  /** `Payment.findOne({user_id, course_id})`. */
  function FindOrder(ps: seq<Payment>, user: Id, course: Id): (r: Option<nat>)
    ensures r.Some? ==> r.value < |ps| && OrderOf(ps[r.value], user, course)
    ensures r.Some? ==> forall j :: 0 <= j < r.value ==> !OrderOf(ps[j], user, course)
    ensures r.None? <==> !HasOrder(ps, user, course)
  {
    FirstMatch(ps, (p: Payment) => OrderOf(p, user, course))
  }

  /** An unpaid record of `user` carrying gateway order `orderId`. */
  predicate PendingOrder(p: Payment, orderId: Id, user: Id) {
    p.orderId == orderId && p.userId == user && !p.paid
  }

  predicate HasPending(ps: seq<Payment>, orderId: Id, user: Id) {
    exists i :: 0 <= i < |ps| && PendingOrder(ps[i], orderId, user)
  }

  /** `Payment.findOne({order_id, user_id, paid: false})`. */
  function FindPending(ps: seq<Payment>, orderId: Id, user: Id): (r: Option<nat>)
    ensures r.Some? ==> r.value < |ps| && PendingOrder(ps[r.value], orderId, user)
    ensures r.None? <==> !HasPending(ps, orderId, user)
  {
    FirstMatch(ps, (p: Payment) => PendingOrder(p, orderId, user))
  }

  /** `Course.findOne({_id, approved: true})` finds the course. */
  predicate Purchasable(db: Db, course: Id) {
    course in db.courses && db.courses[course].approved
  }

  /** Store invariant: at most one record per (buyer, course). */
  predicate OneOrderPerPurchase(ps: seq<Payment>) {
    forall i, j :: 0 <= i < j < |ps| ==> !OrderOf(ps[j], ps[i].userId, ps[i].courseId)
  }

  /** Two versions of one record that agree on everything but the payment
      outcome (paid flag, signature, payment id). */
  predicate SameOrder(a: Payment, b: Payment) {
    && a.userId == b.userId && a.courseId == b.courseId && a.orderId == b.orderId
    && a.price == b.price && a.instuctorId == b.instuctorId && a.instructorId == b.instructorId
  }

  /** How the payment collection may evolve: records are never removed, and
      a record only changes by being paid — a paid record never changes
      again, and no record ever changes owner, course, order id, price or
      instructor fields. */
  predicate PaymentsEvolve(before: seq<Payment>, after: seq<Payment>) {
    && |before| <= |after|
    && forall i :: 0 <= i < |before| ==>
        SameOrder(after[i], before[i]) && (before[i].paid ==> after[i] == before[i])
  }

  lemma PaymentsEvolveTransitive(a: seq<Payment>, b: seq<Payment>, c: seq<Payment>)
    requires PaymentsEvolve(a, b) && PaymentsEvolve(b, c)
    ensures PaymentsEvolve(a, c)
  {
  }

  /** Appending a record for a (buyer, course) pair that has none keeps one
      record per pair. */
  lemma AppendKeepsInvariants(ps: seq<Payment>, p: Payment)
    ensures PaymentsEvolve(ps, ps + [p])
    ensures OneOrderPerPurchase(ps) && !HasOrder(ps, p.userId, p.courseId) ==> OneOrderPerPurchase(ps + [p])
  {
    var qs := ps + [p];
    assert forall i :: 0 <= i < |ps| ==> qs[i] == ps[i];
    if OneOrderPerPurchase(ps) && !HasOrder(ps, p.userId, p.courseId) {
      forall i, j | 0 <= i < j < |qs| ensures !OrderOf(qs[j], qs[i].userId, qs[i].courseId) {
        if j == |ps| {
          assert !OrderOf(ps[i], p.userId, p.courseId);
        }
      }
    }
  }

  /** Nothing outside the payment flow's collections changes. */
  predicate CatalogueAndConfigsUnchanged(db: Db, db': Db) {
    && db'.courses == db.courses && db'.sections == db.sections
    && db'.lectures == db.lectures && db'.reviews == db.reviews
    && db'.configs == db.configs
  }

  /** createOrder (lines 13-78). Only the payment collection can change,
      and only by one new unpaid record; an error changes nothing. */
  function CreateOrder(db: Db, buyer: Id, courseId: Option<string>, gateway: Intent -> Option<Id>)
    : (r: Step<PayReply, PayError>)
    ensures r.reply.Err? ==> r.db == db
    ensures r.db == db.(payments := r.db.payments)
    ensures db.payments <= r.db.payments && |r.db.payments| <= |db.payments| + 1
    ensures PaymentsEvolve(db.payments, r.db.payments)
    ensures OneOrderPerPurchase(db.payments) ==> OneOrderPerPurchase(r.db.payments)
  {
    if Blank(courseId) then Step(db, Err(CourseIdNotGiven))
    else
      var cid := courseId.value;
      match FindOrder(db.payments, buyer, cid)
      case Some(i) => Step(db, Ok(ExistingOrder(db.payments[i].orderId)))
      case None => OpenOrder(db, buyer, cid, gateway)
  }

  /** The second half of createOrder (lines 39-76), reached when the buyer
      has no record for the course: an approved course is priced with the
      gateway and a new unpaid record for the pair is appended. */
  function OpenOrder(db: Db, buyer: Id, cid: Id, gateway: Intent -> Option<Id>)
    : (r: Step<PayReply, PayError>)
    requires !HasOrder(db.payments, buyer, cid)
    ensures r.reply.Err? ==> r.db == db
    ensures r.reply.Ok? ==>
      && r.reply.value.NewOrder?
      && |r.db.payments| == |db.payments| + 1
      && r.db.payments == db.payments + [r.db.payments[|db.payments|]]
      && OrderOf(r.db.payments[|db.payments|], buyer, cid)
      && r.db.payments[|db.payments|].orderId == r.reply.value.orderId
      && !r.db.payments[|db.payments|].paid
      && r.db.payments[|db.payments|].instructorId == None
    ensures r.db == db.(payments := r.db.payments)
    ensures PaymentsEvolve(db.payments, r.db.payments)
    ensures OneOrderPerPurchase(db.payments) ==> OneOrderPerPurchase(r.db.payments)
  {
    if !Purchasable(db, cid) then Step(db, Err(InvalidCourseId))
    else
      var course := db.courses[cid];
      match gateway(Intent(course.price * 100, "INR"))
      case None => Step(db, Err(OrderCreationFailed))
      case Some(orderId) =>
        var record := Payment(buyer, cid, orderId, false, course.price,
                              Some(course.instructorId), None, None, None);
        AppendKeepsInvariants(db.payments, record);
        Step(db.(payments := db.payments + [record]), Ok(NewOrder(orderId)))
  }

  /** A missing or blank course id fails before any lookup. */
  lemma CreateOrderNeedsCourseId(db: Db, buyer: Id, courseId: Option<string>, gateway: Intent -> Option<Id>)
    requires Blank(courseId)
    ensures CreateOrder(db, buyer, courseId, gateway) == Step(db, Err(CourseIdNotGiven))
  {
  }

  /** An existing record for (buyer, course), paid or not, is answered with
      its own order id; nothing is stored and the gateway's answer plays no
      part. */
  lemma CreateOrderReturnsExisting(db: Db, buyer: Id, courseId: Option<string>,
                                   gateway: Intent -> Option<Id>, gateway': Intent -> Option<Id>)
    requires !Blank(courseId) && HasOrder(db.payments, buyer, courseId.value)
    ensures var r := CreateOrder(db, buyer, courseId, gateway);
            && r.db == db && r.reply.Ok? && r.reply.value.ExistingOrder?
            && (exists i :: 0 <= i < |db.payments| && OrderOf(db.payments[i], buyer, courseId.value)
                            && db.payments[i].orderId == r.reply.value.orderId)
            && r == CreateOrder(db, buyer, courseId, gateway')
  {
    var i := FindOrder(db.payments, buyer, courseId.value).value;
    assert OrderOf(db.payments[i], buyer, courseId.value);
  }

  /** Without an existing record, only a present and approved course can be
      ordered. */
  lemma CreateOrderNeedsApprovedCourse(db: Db, buyer: Id, courseId: Option<string>, gateway: Intent -> Option<Id>)
    requires !Blank(courseId) && !HasOrder(db.payments, buyer, courseId.value)
    requires !Purchasable(db, courseId.value)
    ensures CreateOrder(db, buyer, courseId, gateway) == Step(db, Err(InvalidCourseId))
  {
  }

  /** A new order asks the gateway for the course price in paise, in INR; a
      refusal stores nothing, an order id is stored in a new unpaid record at
      the course's price, with the instructor under the misspelt field and
      the field the credit reads left absent. */
  lemma CreateOrderOpensNewOrder(db: Db, buyer: Id, courseId: Option<string>, gateway: Intent -> Option<Id>)
    requires !Blank(courseId) && !HasOrder(db.payments, buyer, courseId.value)
    requires Purchasable(db, courseId.value)
    ensures var c := db.courses[courseId.value];
            var r := CreateOrder(db, buyer, courseId, gateway);
            match gateway(Intent(c.price * 100, "INR"))
            case None => r == Step(db, Err(OrderCreationFailed))
            case Some(orderId) =>
              && r.reply == Ok(NewOrder(orderId))
              && |r.db.payments| == |db.payments| + 1
              && var p := r.db.payments[|db.payments|];
                 && OrderOf(p, buyer, courseId.value) && p.orderId == orderId
                 && !p.paid && p.price == c.price
                 && p.instuctorId == Some(c.instructorId) && p.instructorId == None
                 && p.signature == None && p.paymentId == None
  {
  }

  /** The Customer document `findOneAndUpdate({instructor_id: filter})`
      matches. A present filter matches that instructor's entry; for an
      absent filter the store's choice is not modelled and comes in as
      `unfilteredMatch`. */
  function CreditTarget(revenue: map<Id, int>, filter: Option<Id>, unfilteredMatch: Option<Id>)
    : (r: Option<Id>)
    ensures r.Some? ==> r.value in revenue
    ensures filter.Some? ==> (r.Some? <==> filter.value in revenue)
    ensures filter.Some? && r.Some? ==> r.value == filter.value
    ensures filter.None? && r.Some? ==> r == unfilteredMatch
    ensures filter.None? ==> (r.Some? <==> unfilteredMatch.Some? && unfilteredMatch.value in revenue)
  {
    match filter
    case Some(k) => if k in revenue then Some(k) else None
    case None =>
      if unfilteredMatch.Some? && unfilteredMatch.value in revenue then unfilteredMatch else None
  }

  /** `$inc: {revenue: amount}` on one instructor's entry: that entry rises
      by the amount, no other entry moves, and the total owed to all
      instructors rises by the same amount. */
  function Credit(revenue: map<Id, int>, k: Id, amount: int): (r: map<Id, int>)
    requires k in revenue
    ensures r.Keys == revenue.Keys
    ensures r[k] == revenue[k] + amount
    ensures forall j :: j in revenue && j != k ==> r[j] == revenue[j]
    ensures Total(r) == Total(revenue) + amount
  {
    TotalIncrement(revenue, k, amount);
    revenue[k := revenue[k] + amount]
  }

  /** The caller's `purchasedCourses` replaced by the request-time list with
      `course` appended: an append, so a course already held is held twice. */
  function Grant(db: Db, buyer: Id, course: Id): (r: Db)
    requires HasUser(db, buyer)
    ensures HasUser(r, buyer)
    ensures Caller(r, buyer).purchasedCourses == Caller(db, buyer).purchasedCourses + [course]
    ensures Caller(r, buyer).(purchasedCourses := []) == Caller(db, buyer).(purchasedCourses := [])
    ensures |r.users| == |db.users|
    ensures forall j :: 0 <= j < |db.users| && db.users[j].id != buyer ==> r.users[j] == db.users[j]
    ensures r == db.(users := r.users)
    ensures r.users == db.users[CallerIndex(db, buyer) :=
      Caller(db, buyer).(purchasedCourses := Caller(db, buyer).purchasedCourses + [course])]
    ensures UsersKeyed(db.users) ==> UsersKeyed(r.users)
  {
    var u := Caller(db, buyer);
    SaveCaller(db, buyer, u.(purchasedCourses := u.purchasedCourses + [course]))
  }

  /** `after` is `before` with record `i` marked paid and given the
      gateway's payment id and signature; every other record is as it was. */
  predicate Settled(before: seq<Payment>, after: seq<Payment>, i: nat, paymentId: string, signature: string) {
    && |after| == |before| && i < |before|
    && after[i] == before[i].(paid := true, signature := Some(signature), paymentId := Some(paymentId))
    && forall j :: 0 <= j < |before| && j != i ==> after[j] == before[j]
  }

  /** Settling an unpaid record is an allowed evolution and keeps one record
      per (buyer, course). */
  lemma SettleKeepsInvariants(before: seq<Payment>, after: seq<Payment>, i: nat, paymentId: string, signature: string)
    requires Settled(before, after, i, paymentId, signature) && !before[i].paid
    ensures PaymentsEvolve(before, after)
    ensures OneOrderPerPurchase(before) ==> OneOrderPerPurchase(after)
  {
    assert forall j :: 0 <= j < |before| ==> SameOrder(after[j], before[j]);
  }

  predicate AllGiven(paymentId: Option<string>, orderId: Option<string>, signature: Option<string>) {
    !Blank(paymentId) && !Blank(orderId) && !Blank(signature)
  }

  /** The writes of a verified payment, in the source's order: the record
      is saved as paid, then the revenue is credited, then the course is
      appended to the request-time purchase list. Only the failure after the
      first write leaves the store changed. */
  function Commit(db: Db, buyer: Id, i: nat, paymentId: string, signature: string, unfilteredMatch: Option<Id>)
    : (r: Step<PayReply, PayError>)
    requires HasUser(db, buyer) && i < |db.payments| && !db.payments[i].paid
    ensures Settled(db.payments, r.db.payments, i, paymentId, signature)
    ensures r.reply.Err? ==> r.reply == Err(FailedToAddMoney) && r.db.revenue == db.revenue && r.db.users == db.users
    ensures r.reply.Ok? <==> CreditTarget(db.revenue, db.payments[i].instructorId, unfilteredMatch).Some?
    ensures r.reply.Ok? ==> r.db.users == db.users[CallerIndex(db, buyer) :=
      Caller(db, buyer).(purchasedCourses := Caller(db, buyer).purchasedCourses + [db.payments[i].courseId])]
    ensures PaymentsEvolve(db.payments, r.db.payments)
    ensures OneOrderPerPurchase(db.payments) ==> OneOrderPerPurchase(r.db.payments)
    ensures CatalogueAndConfigsUnchanged(db, r.db)
    ensures UsersKeyed(db.users) ==> UsersKeyed(r.db.users)
  {
    var order := db.payments[i];
    var saved := db.(payments := db.payments[i := order.(paid := true, signature := Some(signature), paymentId := Some(paymentId))]);
    SettleKeepsInvariants(db.payments, saved.payments, i, paymentId, signature);
    match CreditTarget(db.revenue, order.instructorId, unfilteredMatch)
    case None => Step(saved, Err(FailedToAddMoney))
    case Some(k) =>
      var credited := saved.(revenue := Credit(saved.revenue, k, order.price));
      Step(Grant(credited, buyer, order.courseId), Ok(CourseAdded))
  }

  /** A committed payment credits exactly the order's price to the matched
      ledger entry (and so to the total owed) and appends the course to the
      buyer's request-time purchase list. */
  lemma CommitCreditsAndGrants(db: Db, buyer: Id, i: nat, paymentId: string, signature: string,
                               unfilteredMatch: Option<Id>)
    requires HasUser(db, buyer) && i < |db.payments| && !db.payments[i].paid
    requires CreditTarget(db.revenue, db.payments[i].instructorId, unfilteredMatch).Some?
    ensures var r := Commit(db, buyer, i, paymentId, signature, unfilteredMatch);
      var k := CreditTarget(db.revenue, db.payments[i].instructorId, unfilteredMatch).value;
      && r.reply == Ok(CourseAdded)
      && r.db.revenue.Keys == db.revenue.Keys
      && r.db.revenue[k] == db.revenue[k] + db.payments[i].price
      && (forall j :: j in db.revenue && j != k ==> r.db.revenue[j] == db.revenue[j])
      && Total(r.db.revenue) == Total(db.revenue) + db.payments[i].price
      && HasUser(r.db, buyer)
      && Caller(r.db, buyer).purchasedCourses == Caller(db, buyer).purchasedCourses + [db.payments[i].courseId]
      && r.db.users == db.users[CallerIndex(db, buyer) :=
           Caller(db, buyer).(purchasedCourses := Caller(db, buyer).purchasedCourses + [db.payments[i].courseId])]
  {
  }

  /** verifyPayment (lines 80-144). */
  function VerifyPayment(
    db: Db, buyer: Id,
    paymentId: Option<string>, orderId: Option<string>, signature: Option<string>,
    verify: (Id, string, string) -> bool, unfilteredMatch: Option<Id>)
    : (r: Step<PayReply, PayError>)
    requires HasUser(db, buyer)
    ensures r.reply.Err? && r.reply.error != FailedToAddMoney ==> r.db == db
    ensures r.db.revenue != db.revenue || r.db.users != db.users ==> r.reply.Ok?
    ensures r.reply.Ok? ==>
      && |r.db.users| == |db.users|
      && (forall j :: 0 <= j < |db.users| && j != CallerIndex(db, buyer) ==> r.db.users[j] == db.users[j])
      && r.db.users[CallerIndex(db, buyer)].(purchasedCourses := []) == Caller(db, buyer).(purchasedCourses := [])
    ensures PaymentsEvolve(db.payments, r.db.payments)
    ensures OneOrderPerPurchase(db.payments) ==> OneOrderPerPurchase(r.db.payments)
    ensures CatalogueAndConfigsUnchanged(db, r.db)
    ensures UsersKeyed(db.users) ==> UsersKeyed(r.db.users)
  {
    if !AllGiven(paymentId, orderId, signature) then Step(db, Err(FieldsRequired))
    else
      match FindPending(db.payments, orderId.value, buyer)
      case None => Step(db, Err(OrderDoesNotExist))
      case Some(i) =>
        if !verify(orderId.value, paymentId.value, signature.value) then Step(db, Err(InvalidSignature))
        else Commit(db, buyer, i, paymentId.value, signature.value, unfilteredMatch)
  }

  /** payment_id, order_id and signature must all be non-blank. */
  lemma VerifyNeedsAllFields(
    db: Db, buyer: Id, paymentId: Option<string>, orderId: Option<string>, signature: Option<string>,
    verify: (Id, string, string) -> bool, unfilteredMatch: Option<Id>)
    requires HasUser(db, buyer)
    requires !AllGiven(paymentId, orderId, signature)
    ensures VerifyPayment(db, buyer, paymentId, orderId, signature, verify, unfilteredMatch)
            == Step(db, Err(FieldsRequired))
  {
  }

  /** Only an unpaid order of the caller is acted on: an unknown order, one
      of another user and one already paid all fail alike. */
  lemma VerifyNeedsPendingOrder(
    db: Db, buyer: Id, paymentId: Option<string>, orderId: Option<string>, signature: Option<string>,
    verify: (Id, string, string) -> bool, unfilteredMatch: Option<Id>)
    requires HasUser(db, buyer)
    requires AllGiven(paymentId, orderId, signature) && !HasPending(db.payments, orderId.value, buyer)
    ensures VerifyPayment(db, buyer, paymentId, orderId, signature, verify, unfilteredMatch)
            == Step(db, Err(OrderDoesNotExist))
  {
  }

  /** A signature the gateway rejects leaves the order unpaid and the
      revenue and purchases untouched. */
  lemma VerifyRejectsBadSignature(
    db: Db, buyer: Id, paymentId: Option<string>, orderId: Option<string>, signature: Option<string>,
    verify: (Id, string, string) -> bool, unfilteredMatch: Option<Id>)
    requires HasUser(db, buyer)
    requires AllGiven(paymentId, orderId, signature) && HasPending(db.payments, orderId.value, buyer)
    requires !verify(orderId.value, paymentId.value, signature.value)
    ensures VerifyPayment(db, buyer, paymentId, orderId, signature, verify, unfilteredMatch)
            == Step(db, Err(InvalidSignature))
  {
  }

  /** A valid signature on an unpaid order of the caller commits it. */
  lemma VerifyCommits(
    db: Db, buyer: Id, paymentId: Option<string>, orderId: Option<string>, signature: Option<string>,
    verify: (Id, string, string) -> bool, unfilteredMatch: Option<Id>)
    requires HasUser(db, buyer)
    requires AllGiven(paymentId, orderId, signature) && HasPending(db.payments, orderId.value, buyer)
    requires verify(orderId.value, paymentId.value, signature.value)
    ensures var i := FindPending(db.payments, orderId.value, buyer).value;
            VerifyPayment(db, buyer, paymentId, orderId, signature, verify, unfilteredMatch)
            == Commit(db, buyer, i, paymentId.value, signature.value, unfilteredMatch)
  {
  }

  /** What mysales projects out of a record. */
  datatype Sale = Sale(courseId: Id, paid: bool, price: int)

  /** mysales (lines 146-175): the records whose `instructor_id` field is the
      caller, projected to course, paid flag and price, in natural order. */
  function MySales(ps: seq<Payment>, instructor: Id): (r: seq<Sale>)
    ensures |r| <= |ps|
    ensures forall s :: s in r ==>
      exists p :: p in ps && p.instructorId == Some(instructor) && s == Sale(p.courseId, p.paid, p.price)
    ensures forall p :: p in ps && p.instructorId == Some(instructor) ==> Sale(p.courseId, p.paid, p.price) in r
  {
    if ps == [] then []
    else
      var rest := MySales(ps[1..], instructor);
      assert forall p :: p in ps[1..] ==> p in ps;
      if ps[0].instructorId == Some(instructor) then [Sale(ps[0].courseId, ps[0].paid, ps[0].price)] + rest
      else rest
  }

  lemma {:induction false} MySalesAppend(ps: seq<Payment>, qs: seq<Payment>, instructor: Id)
    ensures MySales(ps + qs, instructor) == MySales(ps, instructor) + MySales(qs, instructor)
    decreases |ps|
  {
    if ps == [] {
      assert ps + qs == qs;
    } else {
      assert (ps + qs)[0] == ps[0];
      assert (ps + qs)[1..] == ps[1..] + qs;
      MySalesAppend(ps[1..], qs, instructor);
    }
  }

  /** Because createOrder writes `instuctor_id`, never `instructor_id`, the
      records it creates never show up in any instructor's sales. */
  lemma NewOrdersNeverInMySales(db: Db, buyer: Id, courseId: Option<string>,
                                gateway: Intent -> Option<Id>, instructor: Id)
    ensures MySales(CreateOrder(db, buyer, courseId, gateway).db.payments, instructor)
            == MySales(db.payments, instructor)
  {
    if !Blank(courseId) && !HasOrder(db.payments, buyer, courseId.value) {
      OpenOrderNotInMySales(db, buyer, courseId.value, gateway, instructor);
    }
  }

  lemma OpenOrderNotInMySales(db: Db, buyer: Id, cid: Id, gateway: Intent -> Option<Id>, instructor: Id)
    requires !HasOrder(db.payments, buyer, cid)
    ensures MySales(OpenOrder(db, buyer, cid, gateway).db.payments, instructor) == MySales(db.payments, instructor)
  {
    var r := OpenOrder(db, buyer, cid, gateway);
    if r.reply.Ok? {
      var p := r.db.payments[|db.payments|];
      MySalesAppend(db.payments, [p], instructor);
      assert MySales([p], instructor) == [] by {
        assert [p][1..] == [];
      }
    }
  }

  /** Asking again for the same course returns the same order id and stores
      nothing, whichever way the first call went and whatever the gateway
      would answer now. */
  lemma CreateOrderIdempotent(db: Db, buyer: Id, courseId: Option<string>,
                              gateway: Intent -> Option<Id>, gateway': Intent -> Option<Id>)
    requires CreateOrder(db, buyer, courseId, gateway).reply.Ok?
    ensures var r := CreateOrder(db, buyer, courseId, gateway);
            var r' := CreateOrder(r.db, buyer, courseId, gateway');
            && r'.db == r.db && r'.reply.Ok? && r'.reply.value.ExistingOrder?
            && r'.reply.value.orderId == r.reply.value.orderId
  {
    var r := CreateOrder(db, buyer, courseId, gateway);
    var cid := courseId.value;
    if !HasOrder(db.payments, buyer, cid) {
      var n := |db.payments|;
      FindOrderAfterAppend(db.payments, r.db.payments[n], buyer, cid);
    }
  }

  /** An order appended for a pair that had none is the one findOne finds. */
  lemma FindOrderAfterAppend(ps: seq<Payment>, p: Payment, user: Id, course: Id)
    requires !HasOrder(ps, user, course) && OrderOf(p, user, course)
    ensures FindOrder(ps + [p], user, course) == Some(|ps|)
  {
    var qs := ps + [p];
    assert OrderOf(qs[|ps|], user, course);
    forall j | 0 <= j < |ps| ensures !OrderOf(qs[j], user, course) {
      assert qs[j] == ps[j];
    }
  }

  /** Only one record carries this order id for this buyer. */
  predicate UniqueOrder(ps: seq<Payment>, orderId: Id, user: Id) {
    forall i, j ::
      (0 <= i < |ps| && 0 <= j < |ps| && ps[i].orderId == orderId && ps[i].userId == user
       && ps[j].orderId == orderId && ps[j].userId == user) ==> i == j
  }

  /** A second verify of an order the first one settled is an error, not a
      no-op, and changes nothing: the revenue is credited and the course
      appended at most once per order. */
  lemma SecondVerifyFails(
    db: Db, buyer: Id, paymentId: Option<string>, orderId: Option<string>, signature: Option<string>,
    verify: (Id, string, string) -> bool, unfilteredMatch: Option<Id>,
    verify': (Id, string, string) -> bool, unfilteredMatch': Option<Id>)
    requires HasUser(db, buyer)
    requires AllGiven(paymentId, orderId, signature) && HasPending(db.payments, orderId.value, buyer)
    requires verify(orderId.value, paymentId.value, signature.value)
    requires UniqueOrder(db.payments, orderId.value, buyer)
    ensures var r := VerifyPayment(db, buyer, paymentId, orderId, signature, verify, unfilteredMatch);
            HasUser(r.db, buyer) &&
            VerifyPayment(r.db, buyer, paymentId, orderId, signature, verify', unfilteredMatch')
            == Step(r.db, Err(OrderDoesNotExist))
  {
    var r := VerifyPayment(db, buyer, paymentId, orderId, signature, verify, unfilteredMatch);
    var i := FindPending(db.payments, orderId.value, buyer).value;
    VerifyCommits(db, buyer, paymentId, orderId, signature, verify, unfilteredMatch);
    forall j | 0 <= j < |r.db.payments|
      ensures !PendingOrder(r.db.payments[j], orderId.value, buyer)
    {
      if j != i {
        assert r.db.payments[j] == db.payments[j];
      }
    }
  }
}

=== FILE: service.dfy ===
/** The three controllers as one request handler over the shared store.

    Each request carries the answers of the outside world it needs (gateway,
    Cloudinary, hashing, JWT, mailer, fresh ids, the clock). A request that
    the authentication middleware would turn away (no user document for the
    caller) leaves the store alone. Requests are applied one after another:
    the controllers have no atomic guard, so concurrent interleavings are
    not part of this model. */
module Service {
  import opened Base
  import opened Store
  import Payments
  import Courses
  import Accounts

  datatype PaymentRequest =
    | CreateOrder(buyer: Id, courseId: Option<string>, gateway: Payments.Intent -> Option<Id>)
    | VerifyPayment(buyer: Id, paymentId: Option<string>, orderId: Option<string>, signature: Option<string>,
                    verify: (Id, string, string) -> bool, unfilteredMatch: Option<Id>)

  datatype CourseRequest =
    | CreateSection(me: Id, courseId: Option<string>, title: Option<string>, newId: Id)
    | AddLecture(me: Id, title: Option<string>, courseId: Option<string>, sectionId: Option<string>, newId: Id)
    | AddResource(me: Id, path: Option<string>, lectureId: Option<string>, kind: ResourceKind,
                  upload: Option<Media>, destroy: Courses.Destroy)
    | UpdateLectureTitle(me: Id, title: Option<string>, lectureId: Option<string>)
    | UpdateSectionTitle(me: Id, title: Option<string>, sectionId: Option<string>)
    | UpdateCourseDetails(me: Id, course: Id, price: Option<int>, description: Option<string>,
                          title: Option<string>, thumbnail: Option<string>, destroy: Courses.Destroy,
                          upload: Option<Media>)
    | DeleteLecture(me: Id, lectureId: Option<string>, destroy: Courses.Destroy)
    | DeleteSection(me: Id, sectionId: Option<string>)
    | DeleteCourse(me: Id, courseId: Option<string>, destroy: Courses.Destroy)
    | SubmitForApproval(me: Id, instructorName: string, courseId: Option<string>)

  datatype AccountRequest =
    | RegisterUser(username: Option<string>, email: Option<string>, password: Option<string>, newId: Id)
    | EmailVerificationToken(me: Id, now: int, gen: (Option<Token>, bool) -> Token, mailOk: bool)
    | VerifyUserAccount(me: Id, token: Option<string>, now: int, sha256: string -> string)
    | RefreshAccessToken(incoming: Option<string>, decode: string -> Option<Id>, issued: string)
    | ChangePassword(me: Id, oldPassword: Option<string>, newPassword: Option<string>,
                     matches: (string, string) -> bool, issued: string)
    | ResetPassword(token: Option<string>, newPassword: Option<string>, now: int, sha256: string -> string)
    | LogoutUser(me: Id)
    | Cart(me: Id, add: Option<string>, remove: Option<string>)
    | Favourite(me: Id, add: Option<string>, remove: Option<string>)

  /** A request to one of the three controllers. */
  datatype Request = Pay(pay: PaymentRequest) | Teach(teach: CourseRequest) | Account(account: AccountRequest)

  function ApplyPayment(db: Db, req: PaymentRequest): Db {
    match req
    case CreateOrder(buyer, courseId, gateway) => Payments.CreateOrder(db, buyer, courseId, gateway).db
    case VerifyPayment(buyer, paymentId, orderId, signature, verify, unfilteredMatch) =>
      if !HasUser(db, buyer) then db
      else Payments.VerifyPayment(db, buyer, paymentId, orderId, signature, verify, unfilteredMatch).db
  }

  function ApplyCourse(db: Db, req: CourseRequest): Db {
    match req
    case CreateSection(me, courseId, title, newId) => Courses.CreateSection(db, me, courseId, title, newId).db
    case AddLecture(me, title, courseId, sectionId, newId) =>
      Courses.AddLecture(db, me, title, courseId, sectionId, newId).db
    case AddResource(me, path, lectureId, kind, upload, destroy) =>
      Courses.AddResource(db, me, path, lectureId, kind, upload, destroy).db
    case UpdateLectureTitle(me, title, lectureId) => Courses.UpdateLectureTitle(db, me, title, lectureId).db
    case UpdateSectionTitle(me, title, sectionId) => Courses.UpdateSectionTitle(db, me, title, sectionId).db
    case UpdateCourseDetails(me, course, price, description, title, thumbnail, destroy, upload) =>
      Courses.UpdateCourseDetails(db, me, course, price, description, title, thumbnail, destroy, upload).db
    case DeleteLecture(me, lectureId, destroy) => Courses.DeleteLecture(db, me, lectureId, destroy).db
    case DeleteSection(me, sectionId) => Courses.DeleteSection(db, me, sectionId).db
    case DeleteCourse(me, courseId, destroy) => Courses.DeleteCourse(db, me, courseId, destroy).db
    case SubmitForApproval(me, instructorName, courseId) =>
      Courses.SubmitForApproval(db, me, instructorName, courseId).db
  }

  function ApplyAccount(db: Db, req: AccountRequest): Db {
    match req
    case RegisterUser(username, email, password, newId) =>
      Accounts.RegisterUser(db, username, email, password, newId).db
    case EmailVerificationToken(me, now, gen, mailOk) =>
      if !HasUser(db, me) then db else Accounts.EmailVerificationToken(db, me, now, gen, mailOk).db
    case VerifyUserAccount(me, token, now, sha256) =>
      if !HasUser(db, me) then db else Accounts.VerifyUserAccount(db, me, token, now, sha256).db
    case RefreshAccessToken(incoming, decode, issued) => Accounts.RefreshAccessToken(db, incoming, decode, issued).db
    case ChangePassword(me, oldPassword, newPassword, matches, issued) =>
      if !HasUser(db, me) then db else Accounts.ChangePassword(db, me, oldPassword, newPassword, matches, issued).db
    case ResetPassword(token, newPassword, now, sha256) => Accounts.ResetPassword(db, token, newPassword, now, sha256).db
    case LogoutUser(me) => if !HasUser(db, me) then db else Accounts.LogoutUser(db, me).db
    case Cart(me, add, remove) => Accounts.Cart(db, me, add, remove).db
    case Favourite(me, add, remove) => Accounts.Favourite(db, me, add, remove).db
  }

  /** The store after one request. */
  function Apply(db: Db, req: Request): Db {
    match req
    case Pay(r) => ApplyPayment(db, r)
    case Teach(r) => ApplyCourse(db, r)
    case Account(r) => ApplyAccount(db, r)
  }

  /** The store invariants the controllers maintain together. */
  predicate Consistent(db: Db) {
    && Courses.Integrity(db)
    && Payments.OneOrderPerPurchase(db.payments)
    && UsersKeyed(db.users)
    && Accounts.ListsAreSets(db.configs)
  }

  /** A payment request touches only the payment collection, the revenue
      ledger and the buyer's purchases. */
  lemma PaymentRequestKeepsConsistent(db: Db, req: PaymentRequest)
    requires Consistent(db)
    ensures Consistent(ApplyPayment(db, req))
    ensures Payments.PaymentsEvolve(db.payments, ApplyPayment(db, req).payments)
  {
  }

  /** A course request touches only the catalogue and the review queue, and
      keeps the hierarchy linked. */
  lemma CourseRequestFrame(db: Db, req: CourseRequest)
    ensures Courses.CourseFrame(db, ApplyCourse(db, req))
  {
  }

  /** An account request touches only users and their lists, and keeps
      both keyed. */
  lemma AccountRequestFrame(db: Db, req: AccountRequest)
    ensures Accounts.AccountFrame(db, ApplyAccount(db, req))
  {
  }

  /** Every request keeps the store consistent, and the payment collection
      only evolves: no record disappears, and a paid record never changes. */
  lemma ApplyKeepsConsistent(db: Db, req: Request)
    requires Consistent(db)
    ensures Consistent(Apply(db, req))
    ensures Payments.PaymentsEvolve(db.payments, Apply(db, req).payments)
  {
    match req
    case Pay(r) => PaymentRequestKeepsConsistent(db, r);
    case Teach(r) => CourseRequestFrame(db, r);
    case Account(r) => AccountRequestFrame(db, r);
  }

  /** The store after a sequence of requests, in order. */
  function Run(db: Db, reqs: seq<Request>): Db
    decreases |reqs|
  {
    if reqs == [] then db else Run(Apply(db, reqs[0]), reqs[1..])
  }

  /** Any sequence of requests keeps the store consistent, and over the
      whole run payment records are only ever added or settled. */
  lemma {:induction false} RunKeepsConsistent(db: Db, reqs: seq<Request>)
    requires Consistent(db)
    ensures Consistent(Run(db, reqs))
    ensures Payments.PaymentsEvolve(db.payments, Run(db, reqs).payments)
    decreases |reqs|
  {
    if reqs != [] {
      var db' := Apply(db, reqs[0]);
      ApplyKeepsConsistent(db, reqs[0]);
      RunKeepsConsistent(db', reqs[1..]);
      Payments.PaymentsEvolveTransitive(db.payments, db'.payments, Run(db', reqs[1..]).payments);
    }
  }
}

=== FILE: store.dfy ===
/** The MongoDB database the three controllers share, as one immutable value.

    Courses, sections and lectures are maps keyed by `_id`; a search on a
    parent id (sections of a course, lectures of a section) is a quantifier
    over the map. The Customer revenue ledger is a map from instructor id
    and UserConfig a map from user id: one document per instructor and one
    per user. Collections searched on other fields (payments by buyer and
    course or by order id, users by e-mail or reset token) are sequences in
    natural (insertion) order, so that `findOne` is "the first match". */
module Store {
  import opened Base

  /** A MongoDB ObjectId or a gateway identifier, as text. */
  type Id = string

  /** A Cloudinary asset reference. */
  datatype Media = Media(publicId: string, secureUrl: string)

  /** The `resource_type` a lecture resource was uploaded with. */
  datatype ResourceKind = Video | Raw

  datatype Course = Course(
    instructorId: Id,
    title: string,
    description: string,
    price: int,
    thumbnail: Media,
    approved: bool)

  datatype Section = Section(courseId: Id, instructorId: Id, title: string)

  datatype Lecture = Lecture(
    sectionId: Id,
    instructorId: Id,
    title: string,
    resource: Option<Media>,
    kind: Option<ResourceKind>)

  /** An approval request for a course. */
  datatype Review = Review(courseId: Id, instructorName: string)

  /** A Payment document. `instuctorId` is the field createOrder writes (with
      the source's spelling); `instructorId` is the field verifyPayment and
      mysales read. They are different fields. */
  datatype Payment = Payment(
    userId: Id,
    courseId: Id,
    orderId: Id,
    paid: bool,
    price: int,
    instuctorId: Option<Id>,
    instructorId: Option<Id>,
    signature: Option<string>,
    paymentId: Option<string>)

  /** A rate-limited token held on a user: the SHA-256 hex of the code that
      was mailed, its expiry in milliseconds, and the mails left before the
      cooldown. */
  datatype Token = Token(token: string, expiry: int, emailLimit: int)

  datatype User = User(
    id: Id,
    username: string,
    email: string,
    password: string,
    verified: bool,
    emailVerificationToken: Option<Token>,
    forgotPasswordToken: Option<Token>,
    refreshToken: Option<string>,
    purchasedCourses: seq<Id>)

  /** A user's cart and favourite lists (UserConfig, one per user). */
  datatype UserConfig = UserConfig(cart: seq<Id>, favourite: seq<Id>)

  datatype Db = Db(
    courses: map<Id, Course>,
    sections: map<Id, Section>,
    lectures: map<Id, Lecture>,
    reviews: seq<Review>,
    payments: seq<Payment>,
    revenue: map<Id, int>,   // Customer documents: instructor id -> revenue
    users: seq<User>,
    configs: map<Id, UserConfig>)

  /** What a controller leaves behind: the database after every write it
      made, and the reply or the error it raised. */
  datatype Step<+R, +E> = Step(db: Db, reply: Result<R, E>)

  /** `findOne` over a collection in natural order. */
  function FirstMatch<T>(xs: seq<T>, p: T -> bool): (r: Option<nat>)
    ensures r.Some? ==> r.value < |xs| && p(xs[r.value])
    ensures r.Some? ==> forall j :: 0 <= j < r.value ==> !p(xs[j])
    ensures r.None? <==> forall j :: 0 <= j < |xs| ==> !p(xs[j])
  {
    if xs == [] then None
    else if p(xs[0]) then Some(0)
    else match FirstMatch(xs[1..], p)
      case None => None
      case Some(k) => Some(k + 1)
  }

  /** `User.findById`. */
  function FindUser(users: seq<User>, id: Id): (r: Option<nat>)
    ensures r.Some? ==> r.value < |users| && users[r.value].id == id
    ensures r.Some? ==> forall j :: 0 <= j < r.value ==> users[j].id != id
    ensures r.None? <==> forall j :: 0 <= j < |users| ==> users[j].id != id
  {
    FirstMatch(users, (u: User) => u.id == id)
  }

  /** The authentication middleware found the caller's user document. */
  predicate HasUser(db: Db, id: Id) {
    FindUser(db.users, id).Some?
  }

  /** Where the caller's user document sits in natural order. */
  function CallerIndex(db: Db, id: Id): (i: nat)
    requires HasUser(db, id)
    ensures i < |db.users| && db.users[i].id == id
    ensures forall j :: 0 <= j < i ==> db.users[j].id != id
  {
    FindUser(db.users, id).value
  }

  /** The caller's user document, as the middleware loaded it. */
  function Caller(db: Db, id: Id): (u: User)
    requires HasUser(db, id)
    ensures u in db.users && u.id == id
  {
    db.users[CallerIndex(db, id)]
  }

  /** Store invariant of the user collection: no two documents share an id
      or an e-mail address. */
  predicate UsersKeyed(users: seq<User>) {
    forall i, j :: 0 <= i < j < |users| ==> users[i].id != users[j].id && users[i].email != users[j].email
  }

  /** Rewriting one document without touching its id or e-mail keeps the
      collection keyed. */
  lemma ReplaceKeepsKeyed(users: seq<User>, k: nat, u: User)
    requires k < |users| && users[k].id == u.id
    ensures users[k].email == u.email && UsersKeyed(users) ==> UsersKeyed(users[k := u])
  {
  }

  /** Replaces the caller's user document (Mongoose `save` on `req.user`). */
  function SaveCaller(db: Db, id: Id, u: User): (db': Db)
    requires HasUser(db, id) && u.id == id
    ensures |db'.users| == |db.users| && HasUser(db', id) && Caller(db', id) == u
    ensures forall j :: 0 <= j < |db.users| && db.users[j].id != id ==> db'.users[j] == db.users[j]
    ensures db' == db.(users := db'.users)
    ensures db'.users == db.users[CallerIndex(db, id) := u]
    ensures u.email == Caller(db, id).email && UsersKeyed(db.users) ==> UsersKeyed(db'.users)
  {
    var i := CallerIndex(db, id);
    ReplaceKeepsKeyed(db.users, i, u);
    var db' := db.(users := db.users[i := u]);
    assert db'.users[i].id == id;
    var k := FindUser(db'.users, id);
    assert k.Some? && k.value <= i;
    db'
  }

  /** Sum of a map's values: the total revenue owed to all instructors. */
  ghost function Total(m: map<Id, int>): int
    decreases m.Keys
  {
    if m.Keys == {} then 0
    else
      var k :| k in m.Keys;
      m[k] + Total(m - {k})
  }

  /** Any key can be taken out first. */
  lemma {:induction false} TotalPick(m: map<Id, int>, k: Id)
    requires k in m
    ensures Total(m) == m[k] + Total(m - {k})
    decreases m.Keys
  {
    var j :| j in m.Keys && Total(m) == m[j] + Total(m - {j});
    if j != k {
      TotalPick(m - {j}, k);
      TotalPick(m - {k}, j);
      assert (m - {j}) - {k} == (m - {k}) - {j};
    }
  }

  /** An `$inc` of one entry changes the total by exactly that amount. */
  lemma TotalIncrement(m: map<Id, int>, k: Id, d: int)
    requires k in m
    ensures Total(m[k := m[k] + d]) == Total(m) + d
  {
    TotalPick(m, k);
    TotalPick(m[k := m[k] + d], k);
    assert m[k := m[k] + d] - {k} == m - {k};
  }
}
